=== FILE: README.md ===
# crudBundle Person/Country directory, modelled in Dafny

This project models the core of the crudBundle application: a directory of persons, each of whom may belong to a country. The model covers these parts:

- **The in-memory `PersonsService`** keeps a list of persons and asks a `CountriesService` for country names. It supports add, get-all, get-by-id and a field-dispatched, case-insensitive search.
- **The repository-backed split services** are `PersonsAdderService`, `PersonsDeleterService` and `PersonsGetterService`. They work over `PersonsRepository`.
- **The two repositories** (`PersonsRepository`, `CountriesRepository`) provide append, remove-all-by-id, lookups, predicate filtering and a field-overwriting update.
- **`CountriesService`** adds countries under a uniqueness check on the name and looks them up by id.
- **`PersonsListActionFilter`** is the filter that resets an unknown `searchBy` argument to `"PersonName"`.
- **The `PersonResponse` DTO** contributes its field-wise `Equals` and the `ToPersonResponse` mapping.

## How it is modelled

- **Tables are values.**
  - A table is a `seq<Person>` or `seq<Country>` in insertion order; nullable columns are `Option`s. The database promises no order for a query without `ORDER BY`, so the order of a repository's rows is the model's choice (see "## Left out").
  - A call that changes a table returns an `Outcome`: the table afterwards, and either the value returned or the exception thrown.
  - Each service is a pure function of the table it works on.
- **GUIDs.** A GUID is a `nat`, and `Guid.Empty` is `0`. `Guid.NewGuid()` is replaced by a `newId` parameter, which the caller guarantees is non-empty and not yet used.
- **Model validation.** `ValidationHelper.ModelValidation` is a predicate parameter `modelValid`. When it fails, the call fails with `Validation`.
- **Case-insensitive search.** `OrdinalIgnoreCase` upper-cases both strings (`ToUpperInvariant`, on ASCII letters) and then runs an ordinal substring search. `Text.ContainsIgnoreCase` is proved equal to "some position matches character by character, ignoring case".
- **Search in the repository-backed getter and the countries service.** There the database evaluates the predicate (`SqlText`):
  - `==` and `Contains` on a text column compare under the column's collation, a `Collation` parameter (case-sensitive, or case-insensitive);
  - a null column never equals a value and never contains a non-empty string;
  - `column.Contains(searchString)` is translated as `@p LIKE N'' OR CHARINDEX(@p, column) > 0`. So an empty search string matches every row, null columns included, and a null search string matches none.

  The "CountryID" key looks at the name of the country row the person's CountryID refers to.
- **Dates.**
  - A date is a year, month and day.
  - `"dd MMMM yyyy"` and `"dd MMMM yy"` are written out with the English month names.
  - The long pattern is proved to be readable back (`Dates.LongDateRoundTrip`); the short one drops the century.
- **Age.** `Age` is a symbolic value, `YearsSince(dateOfBirth)`, standing for the rounded number of years at the moment of the call. The model states that it is null exactly when the date of birth is null; its number is not modelled.
- **Person names.** The source has more than one version of the Person record: `ToPersonResponse` reads `person.Name`, and the in-memory search switches on `nameof(Person.Name)`. Every version is modelled over one record whose name field is `personName`. The in-memory search key keeps the value `"Name"` that `nameof(Person.Name)` has, because that value decides which `case` runs.
- **Where the written code and the design description disagree, the model follows the code:**
  - `PersonResponse.Equals` ignores `Country` and `Age` rather than comparing every exposed attribute.
  - In the repository-backed getter, a null search string under a recognised key finds nobody (`PersonsGetterService.NullSearchStringFindsNobody`) rather than the full list.
  - The in-memory search does not search by the resolved country name (see Findings).

## Model

| member | source | states |
|---|---|---|
| Text.ContainsIgnoreCase | Services/PersonsService.cs:89-90 | `Contains(..., OrdinalIgnoreCase)` holds exactly when some position of the text matches the search string character by character with case ignored |
| SqlText.ColumnEquals | Services/CountriesService.cs:35 | `CountryName == name` on the database: a null column never equals the name, a column holding exactly the name always does, and otherwise equality is decided by the collation |
| SqlText.ColumnContains | Services/PersonsGetterService.cs:74-96 | `column.Contains(searchString)` on the database: a null search string matches no row, the empty one matches every row (null columns included), and any other string matches exactly the non-null columns containing it under the collation |
| SqlText.ColumnContainsIsTranslation | Services/PersonsGetterService.cs:74-96 | `ColumnContains` keeps exactly the rows that `WHERE @p LIKE N'' OR CHARINDEX(@p, column) > 0` keeps under SQL's three-valued logic, where `CHARINDEX` gives 0 for an empty search string and null for a null operand |
| SqlText.CaseSensitiveImpliesInsensitive | Services/PersonsGetterService.cs:74-96 | whatever equality or containment a case-sensitive collation accepts, a case-insensitive one accepts too |
| Dates.LongDateRoundTrip | Services/PersonsService.cs:99-100 | the "dd MMMM yyyy" text of a date of birth is read back as that same date, so distinct dates format differently |
| Dates.ShortYearDropsCentury | Services/PersonsGetterService.cs:84 | under "dd MMMM yy", dates a century apart format to the same text |
| Dates.FormatDateLength | Services/PersonsService.cs:100 | a formatted date is as long as two day digits, a space, the month name, a space and four or two year digits, and the two spaces stand after the day and after the month name |
| Dates.FormatDateDigits | Services/PersonsService.cs:100 | the first two characters of a formatted date, and its last four or two, are decimal digits |
| Dates.FormatDateDay | Services/PersonsService.cs:100 | the first two characters of a formatted date read back as its day |
| Dates.FormatDateMonth | Services/PersonsService.cs:100 | the English name of the month stands at position 3 of a formatted date |
| Dates.FormatDateYear | Services/PersonsGetterService.cs:84 | a formatted date ends with the year under "yyyy" and with the year modulo 100 under "yy" |
| Dto.Equals | ServiceContracts/DTO/PersonResponse.cs:32-49 | false for null and for another type; for a PersonResponse, true exactly when the eight person details agree |
| Dto.EqualsIsEquivalence | ServiceContracts/DTO/PersonResponse.cs:41-48 | `Equals` on responses is reflexive, symmetric and transitive |
| Dto.EqualsIgnoresCountryAndAge | ServiceContracts/DTO/PersonResponse.cs:41-48 | responses that differ only in Country and Age are `Equals` |
| Dto.ToPersonResponse | ServiceContracts/DTO/PersonResponse.cs:66-80 | the mapping leaves Country unset, and Age is present exactly when the date of birth is |
| Dto.ToPersonResponseRoundTrip | ServiceContracts/DTO/PersonResponse.cs:69-78 | every field except the TIN is copied verbatim: the person can be read back from its response, with no TIN |
| Dto.EqualResponsesIffSamePerson | ServiceContracts/DTO/PersonResponse.cs:41-48 | the responses of two persons are `Equals` exactly when the persons agree on every field except the TIN |
| Dto.FieldNamed | crudBundle/Filters/ActionFilters/PersonsListActionFilter.cs:38-46 | a key names a searchable property exactly when it is one of the six allowed names, and that property's `nameof` is the key |
| Dto.FieldNamedOfNameOf | Services/PersonsGetterService.cs:74-96 | each searchable property's `nameof` selects that property's own arm |
| PersonsRepository.AddPerson | Repositories/PersonsRepository.cs:19-25 | the table grows by exactly the given row, placed after the existing ones in the model's insertion order, and that same row is returned |
| PersonsRepository.DeletePersonByPersonID | Repositories/PersonsRepository.cs:27-33 | the result is an order-preserving subsequence without the id that keeps every other row as often as it occurred; the flag is true exactly when the id was present |
| PersonsRepository.GetPersonByPersonID | Repositories/PersonsRepository.cs:35-38 | null exactly when no row has the id; otherwise the first row with the id |
| PersonsRepository.GetAllPersons | Repositories/PersonsRepository.cs:40-44 | every row, unchanged, in the model's insertion order |
| PersonsRepository.GetFilteredPersons | Repositories/PersonsRepository.cs:46-50 | an order-preserving subsequence holding exactly the rows that satisfy the predicate, each as often as it is stored |
| PersonsRepository.Overwrite | Repositories/PersonsRepository.cs:59-65 | the updated row keeps the stored id and TIN, and with those two replaced by the given person's it is that person: every other field is copied |
| PersonsRepository.UpdatePerson | Repositories/PersonsRepository.cs:52-71 | fails exactly when no row has the id, since `FirstAsync` throws and the null branch is unreachable; otherwise only the first matching row changes, it takes the seven editable fields, and it keeps its id and TIN |
| PersonsRepository.UpdateThenGet | Repositories/PersonsRepository.cs:52-68 | after an update, looking up the id finds the updated row |
| PersonsRepository.DeleteThenGet | Repositories/PersonsRepository.cs:27-38 | after deleting an id, looking it up finds nothing |
| PersonsRepository.StoreOperationsKeepIdsUnique | Repositories/PersonsRepository.cs:19-71 | delete and update keep ids unique, and so does add when the added id is new |
| PersonsRepository.AddPersonIds | Repositories/PersonsRepository.cs:19-25 | appending adds exactly the new row's id to the table's ids |
| CountriesRepository.AddCountry | Repositories/CountriesRepository.cs:15-21 | the table grows by exactly the given row, placed after the existing ones in the model's insertion order, and that same row is returned |
| CountriesRepository.GetAllCountries | Repositories/CountriesRepository.cs:23-26 | every row, unchanged, in the model's insertion order |
| CountriesRepository.GetCountryByCountryID | Repositories/CountriesRepository.cs:28-31 | null exactly when no row has the id; otherwise the first row with it |
| CountriesRepository.GetCountryByCountryName | Repositories/CountriesRepository.cs:33-36 | null exactly when no row's name equals the given one under the collation; otherwise the first such row; a row holding exactly the name is always found |
| CountriesRepository.AddThenGetById | Repositories/CountriesRepository.cs:15-31 | an append never changes what an existing id finds, and a new id finds the appended row |
| CountriesService.AddCountry | Services/CountriesService.cs:20-51 | a null request or null name throws ArgumentNull, and a name equal to a stored one under the collation throws Argument, each leaving the table unchanged; success happens exactly when no stored name equals it, and then exactly one country with the new id and the name is appended and described |
| CountriesService.Count | Services/CountriesService.cs:35 | the count is positive exactly when some stored country's name equals the given one under the collation, and it never exceeds the number of countries |
| CountriesService.GetAllCountries | Services/CountriesService.cs:53-56 | one response per country, in the model's insertion order |
| CountriesService.GetCountryByCountryID | Services/CountriesService.cs:58-69 | null for a null id or an unmatched id; otherwise the first country with the id |
| CountriesService.AddCountryKeepsNamesDistinct | Services/CountriesService.cs:35-48 | successful additions keep stored country names pairwise unequal under the collation |
| CountriesService.AddedCountryIsListedAndFound | Services/CountriesService.cs:41-68 | an added country is listed by GetAllCountries and found by its new id |
| CountriesService.DuplicateNameFails | Services/CountriesService.cs:35-38 | after a name is added, adding any name equal to it under the collation fails |
| PersonsService.ConvertPersonToPersonResponse | Services/PersonsService.cs:23-28 | the person's details and age unchanged; when the person's CountryID is stored, Country is the name of the first country with that id; it is null when the person has no CountryID or no stored country has it |
| PersonsService.ConvertResolvesCountryName | Services/PersonsService.cs:23-28 | the country name filled in is the one the repository-backed getter reads for the "CountryID" key |
| PersonsService.AddPerson | Services/PersonsService.cs:30-58 | null request, then blank name, then validation failure, each leaving the list unchanged; success happens exactly when all three pass, and then exactly one person with the new id is appended, earlier entries unchanged, and the response is that person converted, with the name of its country resolved |
| PersonsService.GetAllPersons | Services/PersonsService.cs:60-63 | one mapped response per person, in list order |
| PersonsService.GetPersonByPersonID | Services/PersonsService.cs:65-76 | null exactly for a null or unmatched id; otherwise the first person with the id, mapped |
| PersonsService.SearchFieldOf | Services/PersonsService.cs:86-118 | the switch's keys: "Name" selects the name field, "PersonName" reaches the default case, and the other property names select their field |
| PersonsService.FieldText | Services/PersonsService.cs:88-116 | the text each case reads: the name, email, gender and address cases read that property; the date of birth is written exactly as "dd MMMM yyyy", present exactly when the date is, and reads back as that date; the "CountryID" case reads the response's Country |
| PersonsService.SearchedTextAgrees | Services/PersonsService.cs:88-116 | the in-memory search and the repository-backed getter read the same text for every key except the date of birth, where both have a text exactly when the person has a date of birth |
| PersonsService.Keeps | Services/PersonsService.cs:89-116 | a candidate is kept exactly when its field is null or empty or some position matches the search string ignoring case; the empty search string keeps everyone |
| PersonsService.Search | Services/PersonsService.cs:83-121 | the `Where` over the candidates: all of them when searchBy or searchString is null or empty or no field is selected; otherwise an order-preserving subsequence holding exactly the candidates whose field is null or empty or contains the string ignoring case, each as often as it occurs, and all candidates when every one passes |
| PersonsService.GetFilteredPersons | Services/PersonsService.cs:78-123 | the full list when searchBy or searchString is null or empty, or the key is none of the switch's cases; otherwise an order-preserving subsequence of the full list holding exactly the responses whose selected field is null or empty or contains the string ignoring case, each as often as in the full list |
| PersonsService.NameSearchKeepsEveryone | Services/PersonsService.cs:88-91 | as written, a search by "PersonName" returns the whole list |
| PersonsService.CountrySearchKeepsEveryone | Services/PersonsService.cs:108-111 | as written, a search by "CountryID" returns the whole list for any search string |
| PersonsService.NameSearchCounterexample | Services/PersonsService.cs:88-91 | one person "Bob" searched for "ma" by "PersonName" is kept as written and dropped by the corrected search |
| PersonsService.CountrySearchCounterexample | Services/PersonsService.cs:108-111 | with a countries service that holds "Poland" as country 7, a person from it searched for "ma" by "CountryID" is kept as written and dropped by the corrected search |
| PersonsService.GetFilteredPersonsCorrected | Services/PersonsService.cs:78-123 | the search as evidently intended, keyed by the PersonResponse property names over responses with country names resolved: the full list for a missing or unknown key or a null or empty search string, otherwise exactly the resolved responses the key's field keeps, in order and with their multiplicity |
| PersonsService.CorrectedCountrySearchFilters | Services/PersonsService.cs:108-111 | in the corrected search by "CountryID", a person whose non-empty country name lacks the string is left out |
| PersonsService.CorrectedCountrySearchWithoutCountries | Services/PersonsService.cs:17-21 | with the empty countries service the parameterless constructor creates, the corrected search by "CountryID" returns the full list too, since no country name resolves |
| PersonsService.AddedPersonIsListedAndFound | Services/PersonsService.cs:30-76 | an added person has a non-empty id, is listed by GetAllPersons, and is found by the id, as a response `Equals` to the one returned |
| PersonsAdderService.AddPerson | Services/PersonsAdderService.cs:36-66 | null request, then blank name before validation, then validation failure, each leaving the table unchanged; success happens exactly when all pass, and then the table gains exactly one row with the new id, after the existing ones in the model's insertion order, and the response maps that row |
| PersonsAdderService.AddPersonKeepsIdsUnique | Services/PersonsAdderService.cs:56-59 | ids stay unique, and success adds exactly the new id |
| PersonsAdderService.ResponseDescribesRequest | Services/PersonsAdderService.cs:53-64 | the response carries every field of the request, the new id, and no country name |
| PersonsAdderService.AddedPersonIsFound | Services/PersonsAdderService.cs:56-64 | the getter then finds the new id as a response `Equals` to the returned one, equal to it in every field but Age and with Age present in both or neither, and lists it, last in the model's insertion order |
| PersonsDeleterService.DeletePerson | Services/PersonsDeleterService.cs:36-51 | a null id throws ArgumentNull, and an absent id answers false, both leaving the table unchanged; otherwise the answer is true and the rows with the id are removed, every other row kept in order and as often as before |
| PersonsDeleterService.DeletedPersonIsGone | Services/PersonsDeleterService.cs:43-49 | true is answered exactly when the getter found the id before, and afterwards it finds nothing |
| PersonsDeleterService.DeletePersonKeepsIdsUnique | Services/PersonsDeleterService.cs:47-49 | ids stay unique, and exactly the deleted id leaves the table |
| PersonsGetterService.CountryOf | Services/PersonsGetterService.cs:90-92 | the related country is the first stored row with the person's CountryID, and it is missing exactly when the person has no CountryID or the id is not stored |
| PersonsGetterService.CountryName | Services/PersonsGetterService.cs:90-92 | `Country.CountryName` through the navigation property: when the person's CountryID is stored, it is the name of the first country with that id; it is null when the person has no CountryID or the id is not stored |
| PersonsGetterService.Column | Services/PersonsGetterService.cs:74-96 | the column each key's predicate reads: the name, email, gender and address keys read that property; the date of birth is formatted "dd MMMM yy" and is present exactly when the date is; "CountryID" reads the related country's name |
| PersonsGetterService.Matches | Services/PersonsGetterService.cs:74-96 | the predicate handed to the repository: a null search string matches no person, the empty one every person |
| PersonsGetterService.GetAllPersons | Services/PersonsGetterService.cs:38-49 | one response per row, in the model's insertion order, each exactly `ToPersonResponse` of its row, so it reads back as the row without the TIN and without a country name |
| PersonsGetterService.GetPersonByPersonID | Services/PersonsGetterService.cs:51-62 | null exactly for a null id or an id with no row; otherwise the first row with the id, mapped |
| PersonsGetterService.ResponseMatchesOfRow | Services/PersonsGetterService.cs:72-99 | a row's response satisfies the key's predicate exactly when the row does, since every column the predicates read survives the mapping |
| PersonsGetterService.FilteredRows | Services/PersonsGetterService.cs:72-99 | all rows for a key the switch does not know; otherwise an order-preserving subsequence holding exactly the rows the key's predicate matches, each as often as it is stored |
| PersonsGetterService.GetFilteredPersons | Services/PersonsGetterService.cs:64-106 | the full list for an unknown key; otherwise an order-preserving subsequence of it holding exactly the responses of matching rows, each as often as in the full list |
| PersonsGetterService.FoundIffMatches | Services/PersonsGetterService.cs:72-97 | when ids are unique, a person is in the result for a key exactly when that key's column matches |
| PersonsGetterService.CountrySearchMatchesCountryName | Services/PersonsGetterService.cs:90-92 | a search by "CountryID" finds a person exactly when the name of the related country contains the string |
| PersonsGetterService.NullSearchStringFindsNobody | Services/PersonsGetterService.cs:72-97 | under a recognised key, a null search string finds nobody |
| PersonsGetterService.EmptySearchStringFindsEveryone | Services/PersonsGetterService.cs:72-97 | an empty search string returns the full list under any key, persons with a null searched column included |
| PersonsGetterService.CaseSensitiveFindsFewer | Services/PersonsGetterService.cs:72-97 | a case-sensitive collation finds no one that a case-insensitive one misses |
| PersonsListActionFilter.ConvertToString | crudBundle/Filters/ActionFilters/PersonsListActionFilter.cs:33 | a null argument converts to "", a string to itself, and a null result comes only from an object whose ToString is null |
| PersonsListActionFilter.OnActionExecuting | crudBundle/Filters/ActionFilters/PersonsListActionFilter.cs:31-56 | no searchBy means no change; a searchBy converting to one of the six names, or to null, is kept; any other one is replaced by "PersonName" |
| PersonsListActionFilter.SearchByIsRecognisedAfterwards | crudBundle/Filters/ActionFilters/PersonsListActionFilter.cs:38-53 | afterwards, a searchBy that converts to a string is one of the six names, so the getter's switch selects a field |
| PersonsListActionFilter.OtherArgumentsUnchanged | crudBundle/Filters/ActionFilters/PersonsListActionFilter.cs:49-53 | the same arguments are present, and every argument other than searchBy keeps its value |
| PersonsListActionFilter.OnActionExecutingIsIdempotent | crudBundle/Filters/ActionFilters/PersonsListActionFilter.cs:49-53 | running the filter twice equals running it once |
| PersonsListActionFilter.NullSearchByIsReset | crudBundle/Filters/ActionFilters/PersonsListActionFilter.cs:33-53 | a null searchBy converts to "" and is reset to "PersonName" |

## Left out

- CSV and Excel export (`GetPersonsCSV`, `GetPersonsExcel`) and the Excel country upload are left out: they are stream and third-party library I/O.
- The value of Age is left out because it depends on the clock and on floating-point rounding. Only its presence, and the date of birth it is computed from, are modelled.
- Culture is left out: month names are English, and case folding covers only the ASCII letters, not the full invariant-culture table.
- The time of day in a date of birth is left out; dates carry only year, month and day.
- `ValidationHelper.ModelValidation` is not part of this model. Its verdict is the `modelValid` parameter, and the length limits declared on the entity are therefore not checked.
- The ORM and database layer is left out. This covers `SaveChangesAsync`, `Include`, the stored procedures and seeding, and the primary-key constraint. A duplicate id on insert is prevented by the `newId` precondition.
- PersonsGetterService.GetFilteredPersons: the "DateOfBirth" arm throws at run time. The application configures the SQL Server provider (crudBundle/Program.cs:15), and that provider has no translation for `DateTime.ToString("dd MMMM yy")`. The model instead gives the rows the arm's predicate describes, so its contract for that key is a statement about the predicate, not about what the call returns. The same holds for the lemmas about it that range over every key: `PersonsGetterService.FoundIffMatches`, `PersonsGetterService.NullSearchStringFindsNobody`, `PersonsGetterService.EmptySearchStringFindsEveryone` and `PersonsGetterService.CaseSensitiveFindsFewer` describe the predicate for "DateOfBirth", not a call that returns.
- PersonsRepository.GetAllPersons: row order is left out. `ToListAsync()` here has no `ORDER BY` (Repositories/PersonsRepository.cs:43, :49; Repositories/CountriesRepository.cs:25), so SQL Server may return the rows in any order, typically that of the clustered GUID key. The model fixes insertion order, so "at the end", "in order" and "last" in the rows of `PersonsRepository.AddPerson`, `PersonsRepository.GetFilteredPersons`, `CountriesRepository.AddCountry`, `CountriesRepository.GetAllCountries`, `CountriesService.GetAllCountries`, `PersonsGetterService.GetAllPersons`, `PersonsGetterService.FilteredRows`, `PersonsGetterService.GetFilteredPersons`, `PersonsDeleterService.DeletePerson` and `PersonsAdderService.AddedPersonIsFound` describe the model's sequence, not the order the program returns. Which rows are returned, and how often, does not depend on the order. The in-memory `PersonsService` keeps a `List`, whose order is defined.
- PersonsAdderService.AddedPersonIsFound: "lists it last" holds for the model's insertion order only; the program promises no order for `GetAllPersons` (see the line above). Its full equality of the two responses also holds only in the model: Age is the symbolic `YearsSince(dateOfBirth)`, while the program computes it from `DateTime.Now` on each call (ServiceContracts/DTO/PersonResponse.cs:79), so two calls may differ in Age across a rounding boundary. The equality with Age removed, and `Equals`, hold for the program too.
- SqlText.ColumnContains: follows the translation of `Contains` with a parameter that Entity Framework Core uses up to version 8 (`@p LIKE N'' OR CHARINDEX(@p, column) > 0`). Later versions use an escaped `LIKE`, under which the empty string does not match null columns. The provider version is not part of this model.
- SqlText.ColumnEquals: the collation covers only case. SQL Server also ignores trailing spaces when it compares strings with `=`, so it would treat "Poland " as equal to "Poland"; that padding rule is not modelled.
- Month lengths are left out: a day may be any number from 1 to 31 in every month, so impossible dates such as 31 February are admitted. No property here depends on month length.
- GUID generation is replaced by the `newId` parameter.
- Sorting (`PersonsSorterService`) and the updater service are not part of this model. Only the repository's `UpdatePerson` is modelled.
- Controllers, other filters, logging, diagnostics and timing, `async`/`Task`, and dependency injection are left out. They do not change the results.
- The service and repository interfaces are left out; they hold signatures only.

## Findings

| source | as written | input that shows it | evidently intended | confidence | as-written member | corrected member |
|---|---|---|---|---|---|---|
| Services/PersonsService.cs:88 | the name case is `nameof(Person.Name)`, which is "Name", while the person list, its filter and the tests send "PersonName", so a name search reaches `default` and returns everyone | one person "Bob", `GetFilteredPersons("PersonName", "ma")` returns Bob | the key "PersonName" filters by name | not executed | PersonsService.NameSearchCounterexample | PersonsService.GetFilteredPersonsCorrected |
| Services/PersonsService.cs:108-111 | the "CountryID" case filters the responses of `GetAllPersons()`, whose `Country` is never set, so every person is kept | a countries service holding country 7 "Poland" shared with the persons service, as the later constructor `PersonsService(dbContext, countriesService)` in crudTests/PersonsServiceTest.cs:35-36 allows; Ann with CountryID 7; `GetFilteredPersons("CountryID", "ma")` returns Ann. With the parameterless constructor (lines 16-20) the countries service is private and empty, so no name resolves and the defect cannot show | search the resolved country name, as `ConvertPersonToPersonResponse` fills it in | not executed | PersonsService.CountrySearchCounterexample | PersonsService.CorrectedCountrySearchFilters |

=== FILE: countries_repository.dfy ===
/** The Countries repository: store operations over the Countries table. */
module CountriesRepository {
  import opened Wrappers
  import opened Entities
  import opened SqlText
  import Seqs

  /** `AddCountry`: the row is appended and the same record is returned. */
  function AddCountry(countries: seq<Country>, country: Country): (r: (seq<Country>, Country))
    ensures |r.0| == |countries| + 1
    ensures r.0[..|countries|] == countries && r.0[|countries|] == country
    ensures r.1 == country
  {
    (countries + [country], country)
  }

  /** `GetAllCountries`: every row, in the order the model keeps. */
  function GetAllCountries(countries: seq<Country>): (r: seq<Country>)
    ensures r == countries
  {
    countries
  }

  /** `GetCountryByCountryID`: the first row with the id, or null. */
  function GetCountryByCountryID(countries: seq<Country>, id: Guid): (r: Option<Country>)
    ensures r.None? <==> id !in CountryIds(countries)
    ensures r.Some? ==> exists i | 0 <= i < |countries| :: countries[i] == r.value && r.value.countryId == id
                         && forall j | 0 <= j < i :: countries[j].countryId != id
  {
    var r := Seqs.FirstOrDefault(countries, (c: Country) => c.countryId == id);
    if r.None? then
      assert forall i | 0 <= i < |countries| :: countries[i].countryId != id;
      r
    else r
  }

  /** `GetCountryByCountryName`: the first row whose name equals `name` under
      the column's collation, or null; a row with a null name never matches. */
  function GetCountryByCountryName(countries: seq<Country>, name: string, collation: Collation): (r: Option<Country>)
    ensures r.None? <==> forall i | 0 <= i < |countries| :: !ColumnEquals(countries[i].countryName, name, collation)
    ensures r.Some? ==> exists i | 0 <= i < |countries| :: countries[i] == r.value
                         && ColumnEquals(r.value.countryName, name, collation)
                         && forall j | 0 <= j < i :: !ColumnEquals(countries[j].countryName, name, collation)
    ensures (exists i | 0 <= i < |countries| :: countries[i].countryName == Some(name)) ==> r.Some?
  {
    var r := Seqs.FirstOrDefault(countries, (c: Country) => ColumnEquals(c.countryName, name, collation));
    if r.None? then
      assert forall i | 0 <= i < |countries| :: !ColumnEquals(countries[i].countryName, name, collation);
      r
    else r
  }

  /** Appending a country does not change what an earlier lookup by id found,
      and a new id finds the new country. */
  lemma AddThenGetById(countries: seq<Country>, country: Country, id: Guid)
    ensures GetCountryByCountryID(AddCountry(countries, country).0, id) ==
            if id in CountryIds(countries) then GetCountryByCountryID(countries, id)
            else if country.countryId == id then Some(country) else None
  {
    Seqs.FirstOrDefaultAppend(countries, country, (c: Country) => c.countryId == id);
  }
}

=== FILE: countries_service.dfy ===
/** The Countries service: validated creation of countries and lookups that
    return response objects. */
module CountriesService {
  import opened Wrappers
  import opened Exceptions
  import opened Entities
  import opened Dto
  import opened SqlText
  import Seqs

  /** `AddCountry`. `newId` stands for the `Guid.NewGuid()` the service draws:
      never empty and not yet used. A null request or a null name throws
      `ArgumentNullException`; a name equal to a stored one under the column's
      collation throws `ArgumentException`; otherwise the country is appended
      and described in the response. A failed call leaves the store unchanged. */
  function AddCountry(countries: seq<Country>, request: Option<CountryAddRequest>,
                      collation: Collation, newId: Guid): (out: Outcome<seq<Country>, CountryResponse>)
    requires newId != EmptyGuid && newId !in CountryIds(countries)
    ensures request.None? ==> out == Outcome(countries, Failure(ArgumentNull("countryAddRequest")))
    ensures request.Some? && request.value.countryName.None? ==>
              out == Outcome(countries, Failure(ArgumentNull("CountryName")))
    ensures request.Some? && request.value.countryName.Some?
            && (exists i | 0 <= i < |countries| :: ColumnEquals(countries[i].countryName, request.value.countryName.value, collation)) ==>
              out == Outcome(countries, Failure(Argument("Given country name already exists")))
    ensures out.result.Success? <==>
              && request.Some? && request.value.countryName.Some?
              && forall i | 0 <= i < |countries| :: !ColumnEquals(countries[i].countryName, request.value.countryName.value, collation)
    ensures out.result.Failure? ==> out.state == countries
    ensures out.result.Success? ==>
              && out.state == countries + [Country(newId, request.value.countryName)]
              && out.result.value == CountryResponse(newId, request.value.countryName)
              && out.result.value.countryId != EmptyGuid
  {
    match request
    case None => Outcome(countries, Failure(ArgumentNull("countryAddRequest")))
    case Some(req) =>
      if req.countryName.None? then
        Outcome(countries, Failure(ArgumentNull("CountryName")))
      else if Count(countries, req.countryName.value, collation) > 0 then
        Outcome(countries, Failure(Argument("Given country name already exists")))
      else
        var country := ToCountry(req).(countryId := newId);
        Outcome(countries + [country], Success(ToCountryResponse(country)))
  }

  /** `CountAsync(temp => temp.CountryName == name)`: the number of stored
      countries whose name equals `name` under the collation. */
  function Count(countries: seq<Country>, name: string, collation: Collation): (n: nat)
    ensures n > 0 <==> exists i | 0 <= i < |countries| :: ColumnEquals(countries[i].countryName, name, collation)
    ensures n <= |countries|
  {
    var same := Seqs.Filter(countries, (c: Country) => ColumnEquals(c.countryName, name, collation));
    if n :| 0 <= n < |countries| && ColumnEquals(countries[n].countryName, name, collation) then
      Seqs.FilterMembership(countries, (c: Country) => ColumnEquals(c.countryName, name, collation), countries[n]);
      |same|
    else
      assert |same| == 0;
      |same|
  }

  /** `GetAllCountries`: one response per stored country, in the order the model keeps. */
  function GetAllCountries(countries: seq<Country>): (r: seq<CountryResponse>)
    ensures |r| == |countries|
    ensures forall i | 0 <= i < |countries| :: r[i] == ToCountryResponse(countries[i])
  {
    Seqs.Map(countries, ToCountryResponse)
  }

  /** `GetCountryByCountryID`: null for a null id or an id not stored, else the
      first country with that id. */
  function GetCountryByCountryID(countries: seq<Country>, id: Option<Guid>): (r: Option<CountryResponse>)
    ensures r.None? <==> id.None? || id.value !in CountryIds(countries)
    ensures r.Some? ==> exists i | 0 <= i < |countries| ::
              && countries[i].countryId == id.value
              && (forall j | 0 <= j < i :: countries[j].countryId != id.value)
              && r.value == ToCountryResponse(countries[i])
  {
    match id
    case None => None
    case Some(cid) =>
      var found := Seqs.FirstOrDefault(countries, (c: Country) => c.countryId == cid);
      match found
      case None =>
        assert forall i | 0 <= i < |countries| :: countries[i].countryId != cid;
        None
      case Some(c) => Some(ToCountryResponse(c))
  }

  /** No two stored countries have names equal under the collation. */
  predicate DistinctNamesUnder(countries: seq<Country>, collation: Collation) {
    forall i, j | 0 <= i < j < |countries| && countries[j].countryName.Some? ::
      !ColumnEquals(countries[i].countryName, countries[j].countryName.value, collation)
  }

  /** Every call keeps the stored country names pairwise distinct under the
      collation. */
  lemma AddCountryKeepsNamesDistinct(countries: seq<Country>, request: Option<CountryAddRequest>,
                                     collation: Collation, newId: Guid)
    requires newId != EmptyGuid && newId !in CountryIds(countries)
    requires DistinctNamesUnder(countries, collation)
    ensures DistinctNamesUnder(AddCountry(countries, request, collation, newId).state, collation)
  {
    var out := AddCountry(countries, request, collation, newId);
    if out.result.Success? {
      var grown := out.state;
      forall i, j | 0 <= i < j < |grown| && grown[j].countryName.Some?
        ensures !ColumnEquals(grown[i].countryName, grown[j].countryName.value, collation)
      {
        if j < |countries| {
          assert grown[i] == countries[i] && grown[j] == countries[j];
        } else {
          assert grown[i] == countries[i];
        }
      }
    }
  }

  /** A successfully added country is listed by `GetAllCountries` and found by
      its new id. */
  lemma AddedCountryIsListedAndFound(countries: seq<Country>, request: Option<CountryAddRequest>,
                                     collation: Collation, newId: Guid)
    requires newId != EmptyGuid && newId !in CountryIds(countries)
    requires AddCountry(countries, request, collation, newId).result.Success?
    ensures var out := AddCountry(countries, request, collation, newId);
      && out.result.value in GetAllCountries(out.state)
      && GetCountryByCountryID(out.state, Some(newId)) == Some(out.result.value)
  {
    var out := AddCountry(countries, request, collation, newId);
    var all := GetAllCountries(out.state);
    assert all[|countries|] == out.result.value;
    assert out.state[|countries|].countryId == newId;
  }

  /** Adding a name a second time fails, whatever the ids; under a
      case-insensitive collation so does adding it again in other case. */
  lemma DuplicateNameFails(countries: seq<Country>, name: string, again: string,
                           collation: Collation, newId1: Guid, newId2: Guid)
    requires newId1 != EmptyGuid && newId1 !in CountryIds(countries)
    requires newId2 != EmptyGuid && newId2 != newId1 && newId2 !in CountryIds(countries)
    requires AddCountry(countries, Some(CountryAddRequest(Some(name))), collation, newId1).result.Success?
    requires EqualUnder(name, again, collation)
    ensures var first := AddCountry(countries, Some(CountryAddRequest(Some(name))), collation, newId1);
      AddCountry(first.state, Some(CountryAddRequest(Some(again))), collation, newId2).result.Failure?
  {
    var first := AddCountry(countries, Some(CountryAddRequest(Some(name))), collation, newId1);
    assert first.state[|countries|].countryName == Some(name);
    assert ColumnEquals(first.state[|countries|].countryName, again, collation);
    assert newId2 !in CountryIds(first.state) by {
      forall i | 0 <= i < |first.state| ensures first.state[i].countryId != newId2 {
        if i < |countries| { assert first.state[i] == countries[i]; }
      }
    }
  }
}

=== FILE: dates.dfy ===
/** Calendar dates, and the two custom `DateTime.ToString` patterns the person
    searches format dates of birth with, under an English culture. */
module Dates {
  import opened Wrappers

  type Year = y: int | 1 <= y <= 9999 witness 1
  type Month = m: int | 1 <= m <= 12 witness 1
  type Day = d: int | 1 <= d <= 31 witness 1

  /** The date part of a `DateTime`. `Day` admits 31 in every month, so some
      values (31 February) are not calendar dates; no property here depends on
      the length of a month. */
  datatype Date = Date(year: Year, month: Month, day: Day)

  /** The custom format strings used by the searches. */
  datatype DatePattern =
    | LongYear   // "dd MMMM yyyy"
    | ShortYear  // "dd MMMM yy"

  const MonthNames: seq<string> :=
    ["January", "February", "March", "April", "May", "June", "July",
     "August", "September", "October", "November", "December"]

  /** The "MMMM" specifier: the full month name. */
  function MonthName(m: Month): (name: string)
    ensures |name| >= 3
  {
    MonthNames[m - 1]
  }

  function DigitChar(d: nat): char
    requires d < 10
  {
    ('0' as int + d) as char
  }

  function DigitValue(c: char): int {
    c as int - '0' as int
  }

  /** `n` written with exactly `width` decimal digits, zero padded. */
  function Digits(n: nat, width: nat): (s: string)
    requires n < Pow10(width)
    ensures |s| == width
    ensures DecimalValue(s) == n
    decreases width
  {
    if width == 0 then ""
    else
      var s := Digits(n / 10, width - 1) + [DigitChar(n % 10)];
      assert s[..|s| - 1] == Digits(n / 10, width - 1);
      s
  }

  /** Every character `Digits` writes is a decimal digit. */
  lemma {:induction false} DigitsAreDecimal(n: nat, width: nat)
    requires n < Pow10(width)
    ensures forall k | 0 <= k < width :: '0' <= Digits(n, width)[k] <= '9'
    decreases width
  {
    if width > 0 {
      DigitsAreDecimal(n / 10, width - 1);
      var s := Digits(n, width);
      assert s[..width - 1] == Digits(n / 10, width - 1);
      forall k | 0 <= k < width ensures '0' <= s[k] <= '9' {
        if k < width - 1 {
          assert s[k] == s[..width - 1][k];
        }
      }
    }
  }

  function Pow10(k: nat): (p: nat)
    ensures p >= 1
  {
    if k == 0 then 1 else 10 * Pow10(k - 1)
  }

  /** The number a string of decimal digits denotes. */
  function DecimalValue(s: string): int {
    if s == [] then 0 else 10 * DecimalValue(s[..|s| - 1]) + DigitValue(s[|s| - 1])
  }

  /** `d.ToString(pattern)`: day as "dd", a space, the month name, a space, and
      the year as "yyyy" or as its last two digits "yy". */
  function FormatDate(d: Date, pattern: DatePattern): string {
    TwoDigits(d.day) + " " + MonthName(d.month) + " " + YearText(d.year, pattern)
  }

  /** A formatted date is as long as its parts and the two spaces, which stand
      after the day and after the month name. */
  lemma FormatDateLength(d: Date, pattern: DatePattern)
    ensures |FormatDate(d, pattern)| == 2 + 1 + |MonthName(d.month)| + 1 + YearWidth(pattern)
    ensures FormatDate(d, pattern)[2] == ' '
    ensures FormatDate(d, pattern)[3 + |MonthName(d.month)|] == ' '
  {
    LayoutSpaces(FormatDate(d, pattern), TwoDigits(d.day), MonthName(d.month), YearText(d.year, pattern));
  }

  /** Every character of `s` is a decimal digit. */
  predicate IsDecimal(s: string) {
    forall k | 0 <= k < |s| :: '0' <= s[k] <= '9'
  }

  /** The day and the year of a formatted date are written in decimal digits. */
  lemma FormatDateDigits(d: Date, pattern: DatePattern)
    ensures YearWidth(pattern) <= |FormatDate(d, pattern)|
    ensures IsDecimal(FormatDate(d, pattern)[..2])
    ensures var s := FormatDate(d, pattern); IsDecimal(s[|s| - YearWidth(pattern)..])
  {
    TwoDigitsAreDecimal(d.day);
    YearTextIsDecimal(d.year, pattern);
    LayoutPrefix(TwoDigits(d.day), MonthName(d.month), YearText(d.year, pattern));
    LayoutSuffix(TwoDigits(d.day), MonthName(d.month), YearText(d.year, pattern));
  }

  lemma TwoDigitsAreDecimal(n: nat)
    requires n < 100
    ensures IsDecimal(TwoDigits(n))
  {
    assert Pow10(2) == 100;
    DigitsAreDecimal(n, 2);
  }

  lemma YearTextIsDecimal(year: Year, pattern: DatePattern)
    ensures IsDecimal(YearText(year, pattern))
  {
    if pattern.LongYear? {
      assert Pow10(4) == 10000;
      DigitsAreDecimal(year, 4);
    } else {
      TwoDigitsAreDecimal(year % 100);
    }
  }

  /** A formatted date starts with the two digits of the day. */
  lemma FormatDateDay(d: Date, pattern: DatePattern)
    ensures DecimalValue(FormatDate(d, pattern)[..2]) == d.day
  {
    var dd := TwoDigits(d.day);
    LayoutPrefix(dd, MonthName(d.month), YearText(d.year, pattern));
  }

  /** The month name follows the day and a space. */
  lemma FormatDateMonth(d: Date, pattern: DatePattern)
    ensures 3 + |MonthName(d.month)| <= |FormatDate(d, pattern)|
    ensures FormatDate(d, pattern)[3..3 + |MonthName(d.month)|] == MonthName(d.month)
  {
    LayoutMiddle(FormatDate(d, pattern), TwoDigits(d.day), MonthName(d.month), YearText(d.year, pattern));
  }

  /** A formatted date ends with the year, in four or two digits. */
  lemma FormatDateYear(d: Date, pattern: DatePattern)
    ensures YearWidth(pattern) <= |FormatDate(d, pattern)|
    ensures var s := FormatDate(d, pattern);
      DecimalValue(s[|s| - YearWidth(pattern)..]) == if pattern.LongYear? then d.year else d.year % 100
  {
    LayoutSuffix(TwoDigits(d.day), MonthName(d.month), YearText(d.year, pattern));
  }

  function TwoDigits(n: nat): (s: string)
    requires n < 100
    ensures |s| == 2 && DecimalValue(s) == n
  {
    assert Pow10(2) == 100;
    Digits(n, 2)
  }

  /** The year as "yyyy" or "yy". */
  function YearText(year: Year, pattern: DatePattern): (s: string)
    ensures |s| == YearWidth(pattern)
    ensures pattern.LongYear? ==> DecimalValue(s) == year
    ensures pattern.ShortYear? ==> DecimalValue(s) == year % 100
  {
    if pattern.LongYear? then
      assert Pow10(4) == 10000;
      Digits(year, 4)
    else TwoDigits(year % 100)
  }

  /** The first part of `a + " " + b + " " + c` is `a`. */
  lemma LayoutPrefix(a: string, b: string, c: string)
    ensures (a + " " + b + " " + c)[..|a|] == a
  {
    assert a + " " + b + " " + c == a + (" " + b + " " + c);
  }

  /** The middle part of `s == a + " " + b + " " + c` is `b`. */
  lemma LayoutMiddle(s: string, a: string, b: string, c: string)
    requires |a| == 2 && s == a + " " + b + " " + c
    ensures 3 + |b| <= |s|
    ensures s[3..3 + |b|] == b
  {
    assert s == (a + " ") + b + (" " + c);
  }

  /** The two spaces of `s == a + " " + b + " " + c` follow `a` and `b`. */
  lemma LayoutSpaces(s: string, a: string, b: string, c: string)
    requires s == a + " " + b + " " + c
    ensures |s| == |a| + 1 + |b| + 1 + |c|
    ensures s[|a|] == ' ' && s[|a| + 1 + |b|] == ' '
  {
    assert s == (a + " ") + (b + " ") + c;
    assert s[|a| + 1 + |b|] == (b + " ")[|b|];
  }

  /** The last part of `a + " " + b + " " + c` is `c`. */
  lemma LayoutSuffix(a: string, b: string, c: string)
    ensures var s := a + " " + b + " " + c; s[|s| - |c|..] == c
  {
  }

  function YearWidth(pattern: DatePattern): nat {
    if pattern.LongYear? then 4 else 2
  }

  /** Reads back a date written with the "dd MMMM yyyy" pattern. */
  function ParseLongDate(s: string): (r: Option<Date>)
  {
    if |s| < 2 + 1 + 3 + 1 + 4 then None
    else
      var day := DecimalValue(s[..2]);
      var year := DecimalValue(s[|s| - 4..]);
      var month := MonthNumber(s[3..|s| - 5]);
      if 1 <= day <= 31 && 1 <= year <= 9999 && month.Some? then
        Some(Date(year, month.value, day))
      else None
  }

  /** The month whose full name is `name`, if any. */
  function MonthNumber(name: string): (r: Option<Month>)
    ensures r.Some? ==> MonthName(r.value) == name
  {
    if name == "January" then Some(1)
    else if name == "February" then Some(2)
    else if name == "March" then Some(3)
    else if name == "April" then Some(4)
    else if name == "May" then Some(5)
    else if name == "June" then Some(6)
    else if name == "July" then Some(7)
    else if name == "August" then Some(8)
    else if name == "September" then Some(9)
    else if name == "October" then Some(10)
    else if name == "November" then Some(11)
    else if name == "December" then Some(12)
    else None
  }

  /** Every month name is read back as its own month. */
  lemma MonthNumberOfName(m: Month)
    ensures MonthNumber(MonthName(m)) == Some(m)
  {
  }

  /** The "dd MMMM yyyy" pattern loses nothing: the date can be read back, so
      distinct dates of birth format differently. */
  lemma LongDateRoundTrip(d: Date)
    ensures ParseLongDate(FormatDate(d, LongYear)) == Some(d)
  {
    var s := FormatDate(d, LongYear);
    var name := MonthName(d.month);
    FormatDateLength(d, LongYear);
    FormatDateDay(d, LongYear);
    FormatDateMonth(d, LongYear);
    FormatDateYear(d, LongYear);
    assert s[3..|s| - 5] == s[3..3 + |name|];
    MonthNumberOfName(d.month);
  }

  /** The "dd MMMM yy" pattern keeps only the last two digits of the year, so
      dates a century apart format alike. */
  lemma ShortYearDropsCentury(d: Date)
    requires d.year + 100 <= 9999
    ensures FormatDate(d, ShortYear) == FormatDate(d.(year := d.year + 100), ShortYear)
  {
    var later := d.(year := d.year + 100);
    assert later.year % 100 == d.year % 100;
    assert YearText(later.year, ShortYear) == YearText(d.year, ShortYear);
  }
}

=== FILE: dto.dfy ===
/** The data-transfer objects of the service contracts and their mappings to
    and from the entities. */
module Dto {
  import opened Wrappers
  import opened Dates
  import opened Entities

  /** The request to add a person: the entity's fields without id or TIN. */
  datatype PersonAddRequest = PersonAddRequest(
    personName: Option<string>,
    email: Option<string>,
    dateOfBirth: Option<Date>,
    gender: Option<string>,
    countryId: Option<Guid>,
    address: Option<string>,
    receiveNewsLetters: bool)

  /** `ToPerson()`: a new Person with the request's fields, an empty id and no TIN. */
  function ToPerson(request: PersonAddRequest): (p: Person)
    ensures p.personId == EmptyGuid && p.tin.None?
  {
    Person(EmptyGuid, request.personName, request.email, request.dateOfBirth,
           request.gender, request.countryId, request.address,
           request.receiveNewsLetters, None)
  }

  /** The request to add a country. */
  datatype CountryAddRequest = CountryAddRequest(countryName: Option<string>)

  /** `ToCountry()`: a new Country with the requested name and an empty id. */
  function ToCountry(request: CountryAddRequest): Country {
    Country(EmptyGuid, request.countryName)
  }

  /** The response describing a country. */
  datatype CountryResponse = CountryResponse(countryId: Guid, countryName: Option<string>)

  function ToCountryResponse(c: Country): CountryResponse {
    CountryResponse(c.countryId, c.countryName)
  }

  /** The age of a person born on `birth`, in whole years rounded at the moment
      of the call; the clock reading it depends on is not modelled. */
  datatype Age = YearsSince(birth: Date)

  /** The response describing a person. */
  datatype PersonResponse = PersonResponse(
    personId: Guid,
    personName: Option<string>,
    email: Option<string>,
    dateOfBirth: Option<Date>,
    gender: Option<string>,
    countryId: Option<Guid>,
    country: Option<string>,
    address: Option<string>,
    receiveNewsLetters: bool,
    age: Option<Age>)

  /** The argument of `Equals(object? obj)`: null, a PersonResponse, or an
      object of some other type. */
  datatype Obj = Null | OfPersonResponse(response: PersonResponse) | OfOtherType

  /** The eight fields `Equals` compares. */
  datatype PersonDetails = PersonDetails(
    personId: Guid,
    personName: Option<string>,
    email: Option<string>,
    dateOfBirth: Option<Date>,
    gender: Option<string>,
    countryId: Option<Guid>,
    address: Option<string>,
    receiveNewsLetters: bool)

  function Details(r: PersonResponse): PersonDetails {
    PersonDetails(r.personId, r.personName, r.email, r.dateOfBirth, r.gender,
                  r.countryId, r.address, r.receiveNewsLetters)
  }

  /** `PersonResponse.Equals`: false for null and for other types, otherwise
      field-wise equality of the person details. */
  predicate Equals(self: PersonResponse, obj: Obj)
    ensures Equals(self, obj) <==> obj.OfPersonResponse? && Details(self) == Details(obj.response)
  {
    match obj
    case Null => false
    case OfOtherType => false
    case OfPersonResponse(other) =>
      && self.personId == other.personId
      && self.personName == other.personName
      && self.email == other.email
      && self.dateOfBirth == other.dateOfBirth
      && self.gender == other.gender
      && self.countryId == other.countryId
      && self.address == other.address
      && self.receiveNewsLetters == other.receiveNewsLetters
  }

  /** `Equals` is an equivalence on person responses. */
  lemma EqualsIsEquivalence(a: PersonResponse, b: PersonResponse, c: PersonResponse)
    ensures Equals(a, OfPersonResponse(a))
    ensures Equals(a, OfPersonResponse(b)) ==> Equals(b, OfPersonResponse(a))
    ensures Equals(a, OfPersonResponse(b)) && Equals(b, OfPersonResponse(c)) ==> Equals(a, OfPersonResponse(c))
  {
  }

  /** `Equals` ignores the country name and the age. */
  lemma EqualsIgnoresCountryAndAge(a: PersonResponse, country: Option<string>, age: Option<Age>)
    ensures Equals(a, OfPersonResponse(a.(country := country, age := age)))
  {
  }

  /** `ToPersonResponse()`: the person's fields, no country name, and an age
      exactly when the date of birth is known. */
  function ToPersonResponse(p: Person): (r: PersonResponse)
    ensures r.country.None?
    ensures r.age.Some? <==> p.dateOfBirth.Some?
  {
    PersonResponse(p.personId, p.personName, p.email, p.dateOfBirth, p.gender,
                   p.countryId, None, p.address, p.receiveNewsLetters,
                   match p.dateOfBirth
                   case Some(dob) => Some(YearsSince(dob))
                   case None => None)
  }

  /** The person a response describes, with the TIN, which responses omit, left null. */
  function FromPersonResponse(r: PersonResponse): Person {
    Person(r.personId, r.personName, r.email, r.dateOfBirth, r.gender,
           r.countryId, r.address, r.receiveNewsLetters, None)
  }

  /** The mapping copies every field but the TIN: reading the person back from
      its response gives it back with no TIN. */
  lemma ToPersonResponseRoundTrip(p: Person)
    ensures FromPersonResponse(ToPersonResponse(p)) == p.(tin := None)
  {
  }

  /** Two persons' responses are `Equals` exactly when the persons agree on
      every field but the TIN. */
  lemma EqualResponsesIffSamePerson(p: Person, q: Person)
    ensures Equals(ToPersonResponse(p), OfPersonResponse(ToPersonResponse(q)))
        <==> p.(tin := None) == q.(tin := None)
  {
  }

  /** The properties of PersonResponse a person search can be keyed on. */
  datatype SearchField =
    | PersonNameField | EmailField | DateOfBirthField | GenderField | CountryIdField | AddressField

  /** `nameof(PersonResponse.X)` for each searchable property. */
  function NameOf(f: SearchField): string {
    match f
    case PersonNameField => "PersonName"
    case EmailField => "Email"
    case DateOfBirthField => "DateOfBirth"
    case GenderField => "Gender"
    case CountryIdField => "CountryID"
    case AddressField => "Address"
  }

  /** The six search keys, in the order the person list offers them. */
  const SearchKeys: seq<string> :=
    ["PersonName", "Email", "DateOfBirth", "Gender", "CountryID", "Address"]

  /** The property a search key names, if it names one. */
  function FieldNamed(key: string): (f: Option<SearchField>)
    ensures f.Some? <==> key in SearchKeys
    ensures f.Some? ==> NameOf(f.value) == key
  {
    if key == "PersonName" then Some(PersonNameField)
    else if key == "Email" then Some(EmailField)
    else if key == "DateOfBirth" then Some(DateOfBirthField)
    else if key == "Gender" then Some(GenderField)
    else if key == "CountryID" then Some(CountryIdField)
    else if key == "Address" then Some(AddressField)
    else None
  }

  /** Every property is found again under its own name. */
  lemma FieldNamedOfNameOf(f: SearchField)
    ensures FieldNamed(NameOf(f)) == Some(f)
  {
  }
}

=== FILE: entities.dfy ===
/** The two persisted entities, Person and Country, and facts about stores of them. */
module Entities {
  import opened Wrappers
  import opened Dates

  /** A GUID, as a number; `EmptyGuid` is `Guid.Empty`. */
  type Guid = nat

  const EmptyGuid: Guid := 0

  /** A row of the Countries table. */
  datatype Country = Country(countryId: Guid, countryName: Option<string>)

  /** A row of the Persons table. The length limits declared on the columns are
      checked by model validation, not by this record. */
  datatype Person = Person(
    personId: Guid,
    personName: Option<string>,
    email: Option<string>,
    dateOfBirth: Option<Date>,
    gender: Option<string>,
    countryId: Option<Guid>,
    address: Option<string>,
    receiveNewsLetters: bool,
    tin: Option<string>)

  /** The ids present in a person store. */
  function PersonIds(persons: seq<Person>): set<Guid> {
    set i | 0 <= i < |persons| :: persons[i].personId
  }

  /** The ids present in a country store. */
  function CountryIds(countries: seq<Country>): set<Guid> {
    set i | 0 <= i < |countries| :: countries[i].countryId
  }

  /** No two stored persons share an id, as the primary key demands. */
  predicate UniquePersonIds(persons: seq<Person>) {
    forall i, j | 0 <= i < j < |persons| :: persons[i].personId != persons[j].personId
  }
}

=== FILE: exceptions.dfy ===
/** The exceptions the services throw, and the shape of a stateful call. */
module Exceptions {
  import opened Wrappers

  /** The .NET exception types raised by the modelled code. */
  datatype Exception =
    | ArgumentNull(paramName: string)      // ArgumentNullException
    | Argument(message: string)            // ArgumentException
    | Validation                           // raised by ValidationHelper.ModelValidation
    | InvalidOperation(message: string)    // e.g. FirstAsync on an empty match

  /** The store after a call, together with what the call returned or threw. */
  datatype Outcome<S, T> = Outcome(state: S, result: Result<T, Exception>)
}

=== FILE: persons_adder_service.dfy ===
/** The repository-backed person adder: request checks, then one append to
    the Persons table. */
module PersonsAdderService {
  import opened Wrappers
  import opened Exceptions
  import opened Entities
  import opened Dto
  import opened Text
  import PersonsRepository
  import PersonsGetterService

  /** `AddPerson`. `newId` stands for `Guid.NewGuid()`: never empty and not yet
      in the table. A null request throws `ArgumentNullException`; a null or
      empty name throws `ArgumentException` before model validation
      (`modelValid`) runs; otherwise the repository appends the person with the
      new id, and the response maps that stored person. A failed call leaves
      the table unchanged. */
  function AddPerson(persons: seq<Person>, request: Option<PersonAddRequest>,
                     modelValid: PersonAddRequest -> bool, newId: Guid): (out: Outcome<seq<Person>, PersonResponse>)
    requires newId != EmptyGuid && newId !in PersonIds(persons)
    ensures request.None? ==> out == Outcome(persons, Failure(ArgumentNull("personAddRequest")))
    ensures request.Some? && IsNullOrEmpty(request.value.personName) ==>
              out == Outcome(persons, Failure(Argument("Person cannot be blank")))
    ensures request.Some? && !IsNullOrEmpty(request.value.personName) && !modelValid(request.value) ==>
              out == Outcome(persons, Failure(Validation))
    ensures out.result.Success? <==>
              request.Some? && !IsNullOrEmpty(request.value.personName) && modelValid(request.value)
    ensures out.result.Success? ==>
              && |out.state| == |persons| + 1
              && out.state[..|persons|] == persons
              && out.state[|persons|].personId == newId
              && out.state[|persons|].(personId := EmptyGuid) == ToPerson(request.value)
              && out.result.value == ToPersonResponse(out.state[|persons|])
  {
    match request
    case None => Outcome(persons, Failure(ArgumentNull("personAddRequest")))
    case Some(req) =>
      if IsNullOrEmpty(req.personName) then Outcome(persons, Failure(Argument("Person cannot be blank")))
      else if !modelValid(req) then Outcome(persons, Failure(Validation))
      else
        var person := ToPerson(req).(personId := newId);
        var (persons', stored) := PersonsRepository.AddPerson(persons, person);
        Outcome(persons', Success(ToPersonResponse(stored)))
  }

  /** Adding keeps the ids of the table unique, and the new row is the only one
      carrying the new id. */
  lemma AddPersonKeepsIdsUnique(persons: seq<Person>, request: Option<PersonAddRequest>,
                                modelValid: PersonAddRequest -> bool, newId: Guid)
    requires newId != EmptyGuid && newId !in PersonIds(persons)
    requires UniquePersonIds(persons)
    ensures var out := AddPerson(persons, request, modelValid, newId);
      && UniquePersonIds(out.state)
      && (out.result.Success? ==> PersonIds(out.state) == PersonIds(persons) + {newId})
      && (out.result.Failure? ==> PersonIds(out.state) == PersonIds(persons))
  {
    var out := AddPerson(persons, request, modelValid, newId);
    if out.result.Success? {
      var person := out.state[|persons|];
      assert out.state == PersonsRepository.AddPerson(persons, person).0;
      PersonsRepository.StoreOperationsKeepIdsUnique(persons, person, newId);
      PersonsRepository.AddPersonIds(persons, person);
    }
  }

  /** The response describes the request it was made from: every field of the
      request is carried over, the id is the new one, and there is no country
      name yet. */
  lemma ResponseDescribesRequest(persons: seq<Person>, request: Option<PersonAddRequest>,
                                 modelValid: PersonAddRequest -> bool, newId: Guid)
    requires newId != EmptyGuid && newId !in PersonIds(persons)
    requires AddPerson(persons, request, modelValid, newId).result.Success?
    ensures var r := AddPerson(persons, request, modelValid, newId).result.value;
      var req := request.value;
      && r.personId == newId
      && r.personName == req.personName && r.email == req.email
      && r.dateOfBirth == req.dateOfBirth && r.gender == req.gender
      && r.countryId == req.countryId && r.address == req.address
      && r.receiveNewsLetters == req.receiveNewsLetters
      && r.country.None?
  {
    var out := AddPerson(persons, request, modelValid, newId);
    var stored := out.state[|persons|];
    assert stored.(personId := EmptyGuid) == ToPerson(request.value);
  }

  /** The getter then finds the added person by the new id, as a response
      `Equals` to, indeed identical with, the one `AddPerson` returned, and
      lists it last. */
  lemma AddedPersonIsFound(persons: seq<Person>, request: Option<PersonAddRequest>,
                           modelValid: PersonAddRequest -> bool, newId: Guid)
    requires newId != EmptyGuid && newId !in PersonIds(persons)
    requires AddPerson(persons, request, modelValid, newId).result.Success?
    ensures var out := AddPerson(persons, request, modelValid, newId);
      && PersonsGetterService.GetPersonByPersonID(out.state, Some(newId)) == Some(out.result.value)
      && PersonsGetterService.GetPersonByPersonID(out.state, Some(newId)).value.(age := None) == out.result.value.(age := None)
      && (PersonsGetterService.GetPersonByPersonID(out.state, Some(newId)).value.age.Some? <==> out.result.value.age.Some?)
      && Equals(PersonsGetterService.GetPersonByPersonID(out.state, Some(newId)).value, OfPersonResponse(out.result.value))
      && PersonsGetterService.GetAllPersons(out.state)[|persons|] == out.result.value
  {
    var out := AddPerson(persons, request, modelValid, newId);
    var found := PersonsGetterService.GetPersonByPersonID(out.state, Some(newId));
    assert out.state[|persons|].personId == newId;
    var i :| 0 <= i < |out.state| && out.state[i].personId == newId
             && found.value == ToPersonResponse(out.state[i]);
  }
}

=== FILE: persons_deleter_service.dfy ===
/** The repository-backed person deleter. */
module PersonsDeleterService {
  import opened Wrappers
  import opened Exceptions
  import opened Entities
  import Seqs
  import PersonsRepository
  import PersonsGetterService

  /** `DeletePerson`: a null id throws `ArgumentNullException`; an id with no
      row answers false and leaves the table alone; otherwise every row with
      the id is removed and the answer is true. */
  function DeletePerson(persons: seq<Person>, id: Option<Guid>): (out: Outcome<seq<Person>, bool>)
    ensures id.None? ==> out == Outcome(persons, Failure(ArgumentNull("personID")))
    ensures id.Some? && id.value !in PersonIds(persons) ==> out == Outcome(persons, Success(false))
    ensures id.Some? && id.value in PersonIds(persons) ==>
              && out.result == Success(true)
              && Seqs.IsSubsequence(out.state, persons)
              && id.value !in PersonIds(out.state)
              && (forall i | 0 <= i < |persons| && persons[i].personId != id.value :: persons[i] in out.state)
              && (forall p: Person | p.personId != id.value :: Seqs.Count(out.state, p) == Seqs.Count(persons, p))
  {
    match id
    case None => Outcome(persons, Failure(ArgumentNull("personID")))
    case Some(pid) =>
      match PersonsRepository.GetPersonByPersonID(persons, pid)
      case None => Outcome(persons, Success(false))
      case Some(_) =>
        var (persons', _) := PersonsRepository.DeletePersonByPersonID(persons, pid);
        Outcome(persons', Success(true))
  }

  /** After a call that answers true the getter no longer finds the id, and
      it found it before; after false it was not there in the first place. */
  lemma DeletedPersonIsGone(persons: seq<Person>, id: Guid)
    ensures var out := DeletePerson(persons, Some(id));
      && (out.result == Success(true) <==> PersonsGetterService.GetPersonByPersonID(persons, Some(id)).Some?)
      && PersonsGetterService.GetPersonByPersonID(out.state, Some(id)).None?
  {
  }

  /** Deleting keeps the ids of the table unique and removes exactly the one
      id from them. */
  lemma DeletePersonKeepsIdsUnique(persons: seq<Person>, id: Guid)
    requires UniquePersonIds(persons)
    ensures var out := DeletePerson(persons, Some(id));
      && UniquePersonIds(out.state)
      && PersonIds(out.state) == PersonIds(persons) - {id}
  {
    var out := DeletePerson(persons, Some(id));
    Seqs.SubsequenceOfItself(persons);
    PersonsRepository.SubsequenceKeepsUniqueIds(out.state, persons);
    forall x | x in PersonIds(persons) - {id} ensures x in PersonIds(out.state) {
      var k :| 0 <= k < |persons| && persons[k].personId == x;
      var j :| 0 <= j < |out.state| && out.state[j] == persons[k];
    }
  }
}

=== FILE: persons_getter_service.dfy ===
/** The repository-backed person getter: listing, lookup by id, and the
    field-dispatched search, whose predicate the database evaluates. */
module PersonsGetterService {
  import opened Wrappers
  import opened Dates
  import opened Entities
  import opened Dto
  import opened Text
  import opened SqlText
  import Seqs
  import PersonsRepository
  import CountriesRepository

  /** The `Country` navigation property `Include("Country")` loads: the country
      row the person's CountryID refers to. */
  function CountryOf(countries: seq<Country>, p: Person): (c: Option<Country>)
    ensures c.Some? ==> p.countryId.Some? && c.value in countries && c.value.countryId == p.countryId.value
    ensures c.None? <==> p.countryId.None? || p.countryId.value !in CountryIds(countries)
    ensures c.Some? ==> exists i | 0 <= i < |countries| ::
              && countries[i] == c.value
              && (forall j | 0 <= j < i :: countries[j].countryId != p.countryId.value)
  {
    match p.countryId
    case None => None
    case Some(id) => CountriesRepository.GetCountryByCountryID(countries, id)
  }

  /** The name of the person's country, null when there is no country or it
      has no name. */
  function CountryName(countries: seq<Country>, p: Person): (n: Option<string>)
    ensures n.Some? ==> exists c | c in countries :: p.countryId == Some(c.countryId) && c.countryName == n
    ensures p.countryId.None? || p.countryId.value !in CountryIds(countries) ==> n.None?
    ensures p.countryId.Some? && p.countryId.value in CountryIds(countries) ==>
              exists i | 0 <= i < |countries| ::
                && countries[i].countryId == p.countryId.value
                && (forall j | 0 <= j < i :: countries[j].countryId != p.countryId.value)
                && n == countries[i].countryName
  {
    match CountryOf(countries, p)
    case None => None
    case Some(c) => c.countryName
  }

  /** The column a search key looks at: the property itself, the date of birth
      formatted "dd MMMM yy", and for "CountryID" the related country's name.
*/
  function Column(countries: seq<Country>, p: Person, f: SearchField): (t: Option<string>)
    ensures f == PersonNameField ==> t == p.personName
    ensures f == EmailField ==> t == p.email
    ensures f == GenderField ==> t == p.gender
    ensures f == AddressField ==> t == p.address
    ensures f == DateOfBirthField ==> (t.Some? <==> p.dateOfBirth.Some?)
    ensures t.Some? && f == DateOfBirthField ==> p.dateOfBirth.Some? && t.value == FormatDate(p.dateOfBirth.value, ShortYear)
    ensures f == CountryIdField ==> t == CountryName(countries, p)
  {
    match f
    case PersonNameField => p.personName
    case EmailField => p.email
    case DateOfBirthField =>
      (match p.dateOfBirth
       case Some(d) => Some(FormatDate(d, ShortYear))
       case None => None)
    case GenderField => p.gender
    case CountryIdField => CountryName(countries, p)
    case AddressField => p.address
  }

  /** The predicate handed to the repository for the key's field: a null
      search string matches no row, the empty one every row. */
  predicate Matches(countries: seq<Country>, f: SearchField, searchString: Option<string>,
                    collation: Collation, p: Person)
    ensures searchString.None? ==> !Matches(countries, f, searchString, collation, p)
    ensures searchString == Some("") ==> Matches(countries, f, searchString, collation, p)
  {
    ColumnContains(Column(countries, p, f), searchString, collation)
  }

  /** The same predicate on a response: the row it describes matches. Every
      column the predicates read is in the response. */
  predicate ResponseMatches(countries: seq<Country>, f: SearchField, searchString: Option<string>,
                            collation: Collation, x: PersonResponse) {
    Matches(countries, f, searchString, collation, FromPersonResponse(x))
  }

  /** `GetAllPersons`: one response per row, in the order the model keeps. */
  function GetAllPersons(persons: seq<Person>): (r: seq<PersonResponse>)
    ensures |r| == |persons|
    ensures forall i | 0 <= i < |r| :: r[i] == ToPersonResponse(persons[i])
    ensures forall i | 0 <= i < |r| :: FromPersonResponse(r[i]) == persons[i].(tin := None)
    ensures forall i | 0 <= i < |r| :: r[i].country.None?
  {
    Seqs.Map(PersonsRepository.GetAllPersons(persons), ToPersonResponse)
  }

  /** `GetPersonByPersonID`: null for a null id and for an id with no row;
      otherwise the first row with the id, mapped. */
  function GetPersonByPersonID(persons: seq<Person>, id: Option<Guid>): (r: Option<PersonResponse>)
    ensures r.None? <==> id.None? || id.value !in PersonIds(persons)
    ensures r.Some? ==> r.value.personId == id.value
    ensures r.Some? ==> exists i | 0 <= i < |persons| ::
              && persons[i].personId == id.value
              && (forall j | 0 <= j < i :: persons[j].personId != id.value)
              && r.value == ToPersonResponse(persons[i])
  {
    match id
    case None => None
    case Some(pid) =>
      match PersonsRepository.GetPersonByPersonID(persons, pid)
      case None => None
      case Some(p) => Some(ToPersonResponse(p))
  }

  /** A row matches exactly when its response does: no column a predicate
      reads is left out of the response. */
  lemma ResponseMatchesOfRow(countries: seq<Country>, f: SearchField, searchString: Option<string>,
                             collation: Collation, p: Person)
    ensures ResponseMatches(countries, f, searchString, collation, ToPersonResponse(p))
        == Matches(countries, f, searchString, collation, p)
  {
    ToPersonResponseRoundTrip(p);
    assert Column(countries, p.(tin := None), f) == Column(countries, p, f);
  }

  /** The repository rows `GetFilteredPersons` maps: all of them for a key the
      `switch` does not know, otherwise those the field's predicate matches,
      each as often as it is stored. */
  function FilteredRows(persons: seq<Person>, countries: seq<Country>, searchBy: Option<string>,
                        searchString: Option<string>, collation: Collation): (rows: seq<Person>)
    ensures searchBy.None? || FieldNamed(searchBy.value).None? ==> rows == persons
    ensures searchBy.Some? && FieldNamed(searchBy.value).Some? ==>
              && Seqs.IsSubsequence(rows, persons)
              && (forall p :: p in rows <==>
                    p in persons && Matches(countries, FieldNamed(searchBy.value).value, searchString, collation, p))
              && (forall p | Matches(countries, FieldNamed(searchBy.value).value, searchString, collation, p) ::
                    Seqs.Count(rows, p) == Seqs.Count(persons, p))
  {
    var field := if searchBy.Some? then FieldNamed(searchBy.value) else None;
    match field
    case None => PersonsRepository.GetAllPersons(persons)
    case Some(f) =>
      PersonsRepository.GetFilteredPersons(persons, (p: Person) => Matches(countries, f, searchString, collation, p))
  }

  /** `GetFilteredPersons`: the rows chosen by the key's predicate, mapped to
      responses in the order the model keeps. Unlike the in-memory service
      there is no check for a null or empty `searchString`. */
  function GetFilteredPersons(persons: seq<Person>, countries: seq<Country>, searchBy: Option<string>,
                              searchString: Option<string>, collation: Collation): (r: seq<PersonResponse>)
    ensures searchBy.None? || FieldNamed(searchBy.value).None? ==> r == GetAllPersons(persons)
    ensures searchBy.Some? && FieldNamed(searchBy.value).Some? ==>
              && Seqs.IsSubsequence(r, GetAllPersons(persons))
              && (forall x :: x in r <==>
                    exists p | p in persons :: Matches(countries, FieldNamed(searchBy.value).value, searchString, collation, p)
                                               && x == ToPersonResponse(p))
              && (forall x | ResponseMatches(countries, FieldNamed(searchBy.value).value, searchString, collation, x) ::
                    Seqs.Count(r, x) == Seqs.Count(GetAllPersons(persons), x))
  {
    var rows := FilteredRows(persons, countries, searchBy, searchString, collation);
    if searchBy.Some? && FieldNamed(searchBy.value).Some? then
      var f := FieldNamed(searchBy.value).value;
      MappedRows(rows, persons, (p: Person) => Matches(countries, f, searchString, collation, p), ToPersonResponse);
      MappedCounts(persons, countries, f, searchString, collation);
      Seqs.Map(rows, ToPersonResponse)
    else
      Seqs.Map(rows, ToPersonResponse)
  }

  /** The responses of the matching rows are the matching responses, each as
      often as in the full list. */
  lemma MappedCounts(persons: seq<Person>, countries: seq<Country>, f: SearchField,
                     searchString: Option<string>, collation: Collation)
    ensures var r := Seqs.Map(PersonsRepository.GetFilteredPersons(persons, (p: Person) => Matches(countries, f, searchString, collation, p)), ToPersonResponse);
      forall x | ResponseMatches(countries, f, searchString, collation, x) ::
        Seqs.Count(r, x) == Seqs.Count(GetAllPersons(persons), x)
  {
    var keep := (p: Person) => Matches(countries, f, searchString, collation, p);
    var keep2 := (x: PersonResponse) => ResponseMatches(countries, f, searchString, collation, x);
    forall i | 0 <= i < |persons| ensures keep(persons[i]) == keep2(ToPersonResponse(persons[i])) {
      ResponseMatchesOfRow(countries, f, searchString, collation, persons[i]);
    }
    Seqs.MapFilter(persons, keep, ToPersonResponse, keep2);
    Seqs.FilterCounts(Seqs.Map(persons, ToPersonResponse), keep2);
    assert Seqs.Map(persons, ToPersonResponse) == GetAllPersons(persons);
  }

  /** In a table with unique ids, a row's response is found by a search
      exactly when the row itself matches. */
  lemma FoundIffMatches(persons: seq<Person>, countries: seq<Country>, f: SearchField,
                        searchString: Option<string>, collation: Collation, p: Person)
    requires UniquePersonIds(persons) && p in persons
    ensures ToPersonResponse(p) in GetFilteredPersons(persons, countries, Some(NameOf(f)), searchString, collation)
        <==> Matches(countries, f, searchString, collation, p)
  {
    FieldNamedOfNameOf(f);
    var r := GetFilteredPersons(persons, countries, Some(NameOf(f)), searchString, collation);
    if ToPersonResponse(p) in r {
      var q :| q in persons && Matches(countries, f, searchString, collation, q) && ToPersonResponse(p) == ToPersonResponse(q);
      SameIdSameRow(persons, p, q);
    }
  }

  /** In a table with unique ids, the id identifies the row. */
  lemma SameIdSameRow(persons: seq<Person>, p: Person, q: Person)
    requires UniquePersonIds(persons) && p in persons && q in persons && p.personId == q.personId
    ensures p == q
  {
    var i :| 0 <= i < |persons| && persons[i] == p;
    var j :| 0 <= j < |persons| && persons[j] == q;
    assert !(i < j) && !(j < i);
  }

  /** Searching by "CountryID" compares the search string with the name of the
      person's country, never with the id; as a null name matches nothing, a
      person without a country, or whose country has no name, is never found. */
  lemma CountrySearchMatchesCountryName(persons: seq<Person>, countries: seq<Country>,
                                        searchString: Option<string>, collation: Collation, p: Person)
    requires UniquePersonIds(persons) && p in persons
    ensures ToPersonResponse(p) in GetFilteredPersons(persons, countries, Some("CountryID"), searchString, collation)
        <==> ColumnContains(CountryName(countries, p), searchString, collation)
  {
    CountryColumn(countries, searchString, collation, p);
    FoundIffMatches(persons, countries, CountryIdField, searchString, collation, p);
  }

  /** The "CountryID" key names the CountryIdField, whose column is the
      country's name. */
  lemma CountryColumn(countries: seq<Country>, searchString: Option<string>, collation: Collation, p: Person)
    ensures NameOf(CountryIdField) == "CountryID"
    ensures Matches(countries, CountryIdField, searchString, collation, p)
        == ColumnContains(CountryName(countries, p), searchString, collation)
  {
  }

  /** A null search string finds nobody under a recognised key; the in-memory
      service instead returns everyone. */
  lemma NullSearchStringFindsNobody(persons: seq<Person>, countries: seq<Country>, key: string, collation: Collation)
    requires key in SearchKeys
    ensures GetFilteredPersons(persons, countries, Some(key), None, collation) == []
  {
  }

  /** An empty search string finds every person, whatever the key, including
      those whose searched column is null. */
  lemma EmptySearchStringFindsEveryone(persons: seq<Person>, countries: seq<Country>, searchBy: Option<string>,
                                       collation: Collation)
    ensures GetFilteredPersons(persons, countries, searchBy, Some(""), collation) == GetAllPersons(persons)
  {
    if searchBy.Some? && FieldNamed(searchBy.value).Some? {
      var f := FieldNamed(searchBy.value).value;
      var keep := (p: Person) => Matches(countries, f, Some(""), collation, p);
      Seqs.FilterKeepsAll(persons, keep);
      assert Seqs.Filter(persons, keep) == persons;
    }
  }

  /** A case-sensitive collation finds no one a case-insensitive one misses. */
  lemma CaseSensitiveFindsFewer(persons: seq<Person>, countries: seq<Country>, searchBy: Option<string>,
                                searchString: Option<string>, x: PersonResponse)
    requires x in GetFilteredPersons(persons, countries, searchBy, searchString, CaseSensitive)
    ensures x in GetFilteredPersons(persons, countries, searchBy, searchString, CaseInsensitive)
  {
    if searchBy.Some? && FieldNamed(searchBy.value).Some? {
      var f := FieldNamed(searchBy.value).value;
      var p :| p in persons && Matches(countries, f, searchString, CaseSensitive, p) && x == ToPersonResponse(p);
      if searchString.value != "" {
        CaseSensitiveImpliesInsensitive(Column(countries, p, f).value, searchString.value);
      }
      assert Matches(countries, f, searchString, CaseInsensitive, p);
    }
  }

  /** Mapping the rows a predicate picks out of a table gives a subsequence of
      the mapped table, holding exactly the images of the picked rows. */
  lemma MappedRows<A, B>(rows: seq<A>, xs: seq<A>, keep: A -> bool, f: A -> B)
    requires Seqs.IsSubsequence(rows, xs)
    requires forall x :: x in rows <==> x in xs && keep(x)
    ensures Seqs.IsSubsequence(Seqs.Map(rows, f), Seqs.Map(xs, f))
    ensures forall y :: y in Seqs.Map(rows, f) <==> exists x | x in xs && keep(x) :: y == f(x)
  {
    MapKeepsSubsequence(rows, xs, f);
    var r := Seqs.Map(rows, f);
    forall y ensures y in r <==> exists x | x in xs && keep(x) :: y == f(x) {
      if y in r {
        var i :| 0 <= i < |r| && r[i] == y;
        assert rows[i] in rows;
      }
      if x :| x in xs && keep(x) && y == f(x) {
        var i :| 0 <= i < |rows| && rows[i] == x;
        assert r[i] == y;
      }
    }
  }

  /** Mapping both sides keeps a subsequence a subsequence. */
  lemma {:induction false} MapKeepsSubsequence<A, B>(sub: seq<A>, xs: seq<A>, f: A -> B)
    requires Seqs.IsSubsequence(sub, xs)
    ensures Seqs.IsSubsequence(Seqs.Map(sub, f), Seqs.Map(xs, f))
    decreases |xs|
  {
    var ms, mx := Seqs.Map(sub, f), Seqs.Map(xs, f);
    if sub != [] {
      assert Seqs.Map(xs[1..], f) == mx[1..];
      if sub[0] == xs[0] {
        MapKeepsSubsequence(sub[1..], xs[1..], f);
        assert Seqs.Map(sub[1..], f) == ms[1..];
      } else {
        MapKeepsSubsequence(sub, xs[1..], f);
        SubsequenceOfTail(ms, mx);
      }
    }
  }

  /** A subsequence of the tail is a subsequence of the whole. */
  lemma {:induction false} SubsequenceOfTail<T>(sub: seq<T>, xs: seq<T>)
    requires xs != [] && Seqs.IsSubsequence(sub, xs[1..])
    ensures Seqs.IsSubsequence(sub, xs)
    decreases |xs|, |sub|
  {
    if sub != [] && sub[0] == xs[0] {
      // The greedy match takes `xs[0]`; the rest of `sub` lies in `xs[1..]`.
      SubsequenceDropHead(sub, xs[1..]);
    }
  }

  /** Dropping the first element of a subsequence keeps it a subsequence. */
  lemma {:induction false} SubsequenceDropHead<T>(sub: seq<T>, xs: seq<T>)
    requires sub != [] && Seqs.IsSubsequence(sub, xs)
    ensures Seqs.IsSubsequence(sub[1..], xs)
    decreases |xs|, |sub|
  {
    if sub[0] == xs[0] {
      if sub[1..] != [] {
        SubsequenceOfTail(sub[1..], xs);
      }
    } else {
      SubsequenceDropHead(sub, xs[1..]);
      if sub[1..] != [] {
        SubsequenceOfTail(sub[1..], xs);
      }
    }
  }
}

=== FILE: persons_list_action_filter.dfy ===
/** The action filter that runs before the person list action and resets an
    unknown `searchBy` argument to "PersonName". */
module PersonsListActionFilter {
  import opened Wrappers
  import opened Dto

  /** An action argument as the filter sees it: null, a string, or some other
      object, whose `ToString()` may itself return null. */
  datatype ArgValue = NullArg | StringArg(s: string) | OtherArg(text: Option<string>)

  /** `Convert.ToString(object?)`: the empty string for null, the string itself,
      or the object's `ToString()`. */
  function ConvertToString(v: ArgValue): (r: Option<string>)
    ensures v.NullArg? ==> r == Some("")
    ensures v.StringArg? ==> r == Some(v.s)
    ensures r.None? ==> v == OtherArg(None)
  {
    match v
    case NullArg => Some("")
    case StringArg(s) => Some(s)
    case OtherArg(text) => text
  }

  /** The action's arguments by parameter name. */
  type Arguments = map<string, ArgValue>

  /** The value a reset writes: `nameof(PersonResponse.PersonName)`. */
  const DefaultSearchBy: ArgValue := StringArg(NameOf(PersonNameField))

  /** `OnActionExecuting`: when a `searchBy` argument is present and converts
      to a non-null string that is not one of the six search keys, it is
      replaced by "PersonName"; nothing else is touched. */
  function OnActionExecuting(args: Arguments): (r: Arguments)
    ensures "searchBy" !in args ==> r == args
    ensures "searchBy" in args ==>
              var text := ConvertToString(args["searchBy"]);
              && (text.Some? && text.value !in SearchKeys ==> r == args["searchBy" := StringArg("PersonName")])
              && (text.None? || text.value in SearchKeys ==> r == args)
  {
    if "searchBy" in args then
      var searchBy := ConvertToString(args["searchBy"]);
      if searchBy.Some? && searchBy.value !in SearchKeys then args["searchBy" := DefaultSearchBy]
      else args
    else args
  }

  /** Afterwards a `searchBy` that converts to a string names one of the six
      searchable properties, so the getter's `switch` takes one of its field
      cases rather than the default. */
  lemma SearchByIsRecognisedAfterwards(args: Arguments)
    ensures var r := OnActionExecuting(args);
      "searchBy" in r && ConvertToString(r["searchBy"]).Some? ==>
        && ConvertToString(r["searchBy"]).value in SearchKeys
        && FieldNamed(ConvertToString(r["searchBy"]).value).Some?
  {
  }

  /** The filter only ever changes the `searchBy` entry: the same parameters
      are present, and every other argument keeps its value. */
  lemma OtherArgumentsUnchanged(args: Arguments)
    ensures OnActionExecuting(args).Keys == args.Keys
    ensures forall k | k in args && k != "searchBy" :: OnActionExecuting(args)[k] == args[k]
  {
  }

  /** Running the filter twice is the same as running it once. */
  lemma OnActionExecutingIsIdempotent(args: Arguments)
    ensures OnActionExecuting(OnActionExecuting(args)) == OnActionExecuting(args)
  {
  }

  /** A null `searchBy` converts to the empty string, which is not a search
      key, so it too is reset to "PersonName"; only an object whose
      `ToString()` returns null gets past the null check unchanged. */
  lemma NullSearchByIsReset(args: Arguments)
    requires "searchBy" in args && args["searchBy"] == NullArg
    ensures OnActionExecuting(args)["searchBy"] == StringArg("PersonName")
  {
    assert "" !in SearchKeys;
  }
}

=== FILE: persons_repository.dfy ===
/** The Persons repository: store operations over the Persons table, modelled
    as a sequence of rows in insertion order. The database itself promises no
    order for these queries; the order is the model's. */
module PersonsRepository {
  import opened Wrappers
  import opened Exceptions
  import opened Entities
  import Seqs

  /** `AddPerson`: the row is appended and the same record is returned. */
  function AddPerson(persons: seq<Person>, person: Person): (r: (seq<Person>, Person))
    ensures |r.0| == |persons| + 1
    ensures r.0[..|persons|] == persons && r.0[|persons|] == person
    ensures r.1 == person
  {
    (persons + [person], person)
  }

  /** `DeletePersonByPersonID`: every row with the id is removed, the others
      are all kept in their order, and the result says whether any row was
      deleted. */
  function DeletePersonByPersonID(persons: seq<Person>, id: Guid): (r: (seq<Person>, bool))
    ensures Seqs.IsSubsequence(r.0, persons)
    ensures id !in PersonIds(r.0)
    ensures forall i | 0 <= i < |persons| && persons[i].personId != id :: persons[i] in r.0
    ensures forall p: Person | p.personId != id :: Seqs.Count(r.0, p) == Seqs.Count(persons, p)
    ensures r.1 <==> id in PersonIds(persons)
  {
    var kept := Seqs.Filter(persons, (p: Person) => p.personId != id);
    Seqs.FilterCounts(persons, (p: Person) => p.personId != id);
    var rowsDeleted := |persons| - |kept|;
    Seqs.FilterKeepsAll(persons, (p: Person) => p.personId != id);
    forall i | 0 <= i < |persons| && persons[i].personId != id ensures persons[i] in kept {
      Seqs.FilterMembership(persons, (p: Person) => p.personId != id, persons[i]);
    }
    (kept, rowsDeleted > 0)
  }

  /** `GetPersonByPersonID`: the first row with the id, or null. */
  function GetPersonByPersonID(persons: seq<Person>, id: Guid): (r: Option<Person>)
    ensures r.None? <==> id !in PersonIds(persons)
    ensures r.Some? ==> exists i | 0 <= i < |persons| :: persons[i] == r.value && r.value.personId == id
                         && forall j | 0 <= j < i :: persons[j].personId != id
  {
    var r := Seqs.FirstOrDefault(persons, (p: Person) => p.personId == id);
    if r.None? then
      assert forall i | 0 <= i < |persons| :: persons[i].personId != id;
      r
    else r
  }

  /** `GetAllPersons`: every row, in the order the model keeps. */
  function GetAllPersons(persons: seq<Person>): (r: seq<Person>)
    ensures r == persons
  {
    persons
  }

  /** `GetFilteredPersons`: exactly the rows satisfying the predicate, each as
      often as it is stored, in the order the model keeps. */
  function GetFilteredPersons(persons: seq<Person>, matches: Person -> bool): (r: seq<Person>)
    ensures Seqs.IsSubsequence(r, persons)
    ensures forall p :: p in r <==> p in persons && matches(p)
    ensures forall p | matches(p) :: Seqs.Count(r, p) == Seqs.Count(persons, p)
  {
    var r := Seqs.Filter(persons, matches);
    Seqs.FilterCounts(persons, matches);
    forall p ensures p in r <==> p in persons && matches(p) {
      Seqs.FilterMembership(persons, matches, p);
    }
    r
  }

  /** The fields `UpdatePerson` copies onto the stored row; id and TIN are kept. */
  function Overwrite(stored: Person, person: Person): (r: Person)
    ensures r.personId == stored.personId && r.tin == stored.tin
    ensures r.(personId := person.personId, tin := person.tin) == person
  {
    stored.(personName := person.personName, email := person.email,
            dateOfBirth := person.dateOfBirth, gender := person.gender,
            countryId := person.countryId, address := person.address,
            receiveNewsLetters := person.receiveNewsLetters)
  }

  /** `UpdatePerson`: `FirstAsync` finds the first row with the person's id (and
      throws when there is none, so the null check after it never fires); the
      editable fields of that row are overwritten and the row is returned. */
  function UpdatePerson(persons: seq<Person>, person: Person): (r: Result<(seq<Person>, Person), Exception>)
    ensures r.Failure? <==> person.personId !in PersonIds(persons)
    ensures r.Failure? ==> r.error.InvalidOperation?
    ensures r.Success? ==> var (persons', updated) := r.value;
      && |persons'| == |persons|
      && exists i | 0 <= i < |persons| ::
        && persons[i].personId == person.personId
        && (forall j | 0 <= j < i :: persons[j].personId != person.personId)
        && persons' == persons[i := updated]
        && updated.personId == persons[i].personId && updated.tin == persons[i].tin
        && updated.(personId := person.personId, tin := person.tin) == person
  {
    match Seqs.FindFirst(persons, (p: Person) => p.personId == person.personId)
    case None =>
      Failure(InvalidOperation("Sequence contains no matching element"))
    case Some(i) =>
      var updated := Overwrite(persons[i], person);
      Success((persons[i := updated], updated))
  }

  /** After an update the id finds the updated row. */
  lemma UpdateThenGet(persons: seq<Person>, person: Person)
    requires UpdatePerson(persons, person).Success?
    ensures var (persons', updated) := UpdatePerson(persons, person).value;
      GetPersonByPersonID(persons', person.personId) == Some(updated)
  {
    var (persons', updated) := UpdatePerson(persons, person).value;
    var i :| 0 <= i < |persons| && persons[i].personId == person.personId
             && (forall j | 0 <= j < i :: persons[j].personId != person.personId)
             && persons' == persons[i := updated];
    var r := GetPersonByPersonID(persons', person.personId);
    assert persons'[i].personId == person.personId;
    var k :| 0 <= k < |persons'| && persons'[k] == r.value && r.value.personId == person.personId
             && forall j | 0 <= j < k :: persons'[j].personId != person.personId;
    assert k == i;
  }

  /** After deleting an id, looking it up finds nothing. */
  lemma DeleteThenGet(persons: seq<Person>, id: Guid)
    ensures GetPersonByPersonID(DeletePersonByPersonID(persons, id).0, id).None?
  {
  }

  /** Deleting and updating keep ids unique; adding keeps them unique when the
      added id is new. */
  lemma StoreOperationsKeepIdsUnique(persons: seq<Person>, person: Person, id: Guid)
    requires UniquePersonIds(persons)
    ensures person.personId !in PersonIds(persons) ==> UniquePersonIds(AddPerson(persons, person).0)
    ensures UniquePersonIds(DeletePersonByPersonID(persons, id).0)
    ensures UpdatePerson(persons, person).Success? ==> UniquePersonIds(UpdatePerson(persons, person).value.0)
  {
    var kept := DeletePersonByPersonID(persons, id).0;
    SubsequenceKeepsUniqueIds(kept, persons);
    if person.personId !in PersonIds(persons) {
      var grown := AddPerson(persons, person).0;
      forall i, j | 0 <= i < j < |grown| ensures grown[i].personId != grown[j].personId {
        if j == |persons| {
          assert grown[i] == persons[i];
        } else {
          assert grown[i] == persons[i] && grown[j] == persons[j];
        }
      }
    }
  }

  /** Appending a row adds exactly its id to the ids of the store. */
  lemma AddPersonIds(persons: seq<Person>, person: Person)
    ensures PersonIds(AddPerson(persons, person).0) == PersonIds(persons) + {person.personId}
  {
    var grown := AddPerson(persons, person).0;
    forall x | x in PersonIds(grown) ensures x in PersonIds(persons) + {person.personId} {
      var k :| 0 <= k < |grown| && grown[k].personId == x;
      if k < |persons| {
        assert grown[k] == persons[k];
      }
    }
    forall x | x in PersonIds(persons) ensures x in PersonIds(grown) {
      var k :| 0 <= k < |persons| && persons[k].personId == x;
      assert grown[k] == persons[k];
    }
    assert grown[|persons|].personId == person.personId;
  }

  /** A subsequence of a store with unique ids has unique ids. */
  lemma {:induction false} SubsequenceKeepsUniqueIds(sub: seq<Person>, persons: seq<Person>)
    requires UniquePersonIds(persons)
    requires Seqs.IsSubsequence(sub, persons)
    ensures UniquePersonIds(sub)
    ensures PersonIds(sub) <= PersonIds(persons)
    decreases |persons|
  {
    if sub == [] {
    } else if sub[0] == persons[0] {
      SubsequenceKeepsUniqueIds(sub[1..], persons[1..]);
      assert forall x | x in PersonIds(sub[1..]) :: x in PersonIds(persons[1..]);
      forall j | 0 < j < |sub| ensures sub[0].personId != sub[j].personId {
        assert sub[j] == sub[1..][j - 1];
        assert sub[j].personId in PersonIds(persons[1..]);
      }
      forall i, j | 0 <= i < j < |sub| ensures sub[i].personId != sub[j].personId {
        if i > 0 {
          assert sub[i] == sub[1..][i - 1] && sub[j] == sub[1..][j - 1];
        }
      }
      forall x | x in PersonIds(sub) ensures x in PersonIds(persons) {
        var k :| 0 <= k < |sub| && sub[k].personId == x;
        if k > 0 {
          assert sub[k] == sub[1..][k - 1];
          assert x in PersonIds(persons[1..]);
          var m :| 0 <= m < |persons[1..]| && persons[1..][m].personId == x;
          assert persons[m + 1].personId == x;
        }
      }
    } else {
      SubsequenceKeepsUniqueIds(sub, persons[1..]);
      forall x | x in PersonIds(sub) ensures x in PersonIds(persons) {
        var m :| 0 <= m < |persons[1..]| && persons[1..][m].personId == x;
        assert persons[m + 1].personId == x;
      }
    }
  }
}

=== FILE: persons_service.dfy ===
/** The in-memory Persons service: a list of persons plus the countries
    service it consults for country names. */
module PersonsService {
  import opened Wrappers
  import opened Exceptions
  import opened Dates
  import opened Entities
  import opened Dto
  import opened Text
  import Seqs
  import CountriesService
  import PersonsGetterService

  /** The service's list of persons and the store of the countries service it
      consults. The parameterless constructor starts both empty and this
      service never adds a country; the countries are part of the state so
      that a shared countries service, as a later constructor takes, can be
      described too. */
  datatype State = State(persons: seq<Person>, countries: seq<Country>)

  const Initial: State := State([], [])

  /** `ConvertPersonToPersonResponse`: the mapped person with the name of its
      country, looked up by id, filled in. */
  function ConvertPersonToPersonResponse(s: State, p: Person): (r: PersonResponse)
    ensures Details(r) == Details(ToPersonResponse(p)) && r.age == ToPersonResponse(p).age
    ensures r.country.Some? ==> exists c | c in s.countries ::
              p.countryId == Some(c.countryId) && c.countryName == r.country
    ensures p.countryId.None? || p.countryId.value !in CountryIds(s.countries) ==> r.country.None?
    ensures p.countryId.Some? && p.countryId.value in CountryIds(s.countries) ==>
              exists i | 0 <= i < |s.countries| ::
                && s.countries[i].countryId == p.countryId.value
                && (forall j | 0 <= j < i :: s.countries[j].countryId != p.countryId.value)
                && r.country == s.countries[i].countryName
  {
    var found := CountriesService.GetCountryByCountryID(s.countries, p.countryId);
    var name := (match found
                 case Some(c) => FoundCountryName(s.countries, p.countryId); c.countryName
                 case None => None);
    ToPersonResponse(p).(country := name)
  }

  /** The name the in-memory service fills in is the one the repository-backed
      getter reaches through the `Country` navigation property: both look the
      person's CountryID up among the stored countries. */
  lemma ConvertResolvesCountryName(s: State, p: Person)
    ensures ConvertPersonToPersonResponse(s, p).country == PersonsGetterService.CountryName(s.countries, p)
  {
    var r := ConvertPersonToPersonResponse(s, p);
    if p.countryId.Some? && p.countryId.value in CountryIds(s.countries) {
      var id := p.countryId.value;
      var i :| 0 <= i < |s.countries| && s.countries[i].countryId == id
               && (forall j | 0 <= j < i :: s.countries[j].countryId != id)
               && r.country == s.countries[i].countryName;
      var c := PersonsGetterService.CountryOf(s.countries, p).value;
      var k :| 0 <= k < |s.countries| && s.countries[k] == c && c.countryId == id
               && forall j | 0 <= j < k :: s.countries[j].countryId != id;
      assert !(i < k) && !(k < i);
    }
  }

  /** The name the countries service answers with belongs to a stored country
      with the requested id. */
  lemma FoundCountryName(countries: seq<Country>, id: Option<Guid>)
    requires CountriesService.GetCountryByCountryID(countries, id).Some?
    ensures exists c | c in countries :: id == Some(c.countryId)
              && c.countryName == CountriesService.GetCountryByCountryID(countries, id).value.countryName
    ensures exists i | 0 <= i < |countries| ::
              && countries[i].countryId == id.value
              && (forall j | 0 <= j < i :: countries[j].countryId != id.value)
              && CountriesService.GetCountryByCountryID(countries, id).value.countryName == countries[i].countryName
  {
    var i :| 0 <= i < |countries| && countries[i].countryId == id.value
             && (forall j | 0 <= j < i :: countries[j].countryId != id.value)
             && CountriesService.GetCountryByCountryID(countries, id).value == ToCountryResponse(countries[i]);
    assert countries[i] in countries;
  }

  /** `AddPerson`. `newId` stands for `Guid.NewGuid()`: never empty and not yet
      used. A null request throws `ArgumentNullException`; a null or empty name
      throws `ArgumentException` before model validation (`modelValid`) runs;
      otherwise the person is appended with the new id. A failed call leaves
      the state unchanged. */
  function AddPerson(s: State, request: Option<PersonAddRequest>,
                     modelValid: PersonAddRequest -> bool, newId: Guid): (out: Outcome<State, PersonResponse>)
    requires newId != EmptyGuid && newId !in PersonIds(s.persons)
    ensures request.None? ==> out == Outcome(s, Failure(ArgumentNull("personAddRequest")))
    ensures request.Some? && IsNullOrEmpty(request.value.personName) ==>
              out == Outcome(s, Failure(Argument("Person cannot be blank")))
    ensures request.Some? && !IsNullOrEmpty(request.value.personName) && !modelValid(request.value) ==>
              out == Outcome(s, Failure(Validation))
    ensures out.result.Success? <==>
              request.Some? && !IsNullOrEmpty(request.value.personName) && modelValid(request.value)
    ensures out.result.Success? ==>
              && out.state.countries == s.countries
              && |out.state.persons| == |s.persons| + 1
              && out.state.persons[..|s.persons|] == s.persons
              && out.state.persons[|s.persons|] == ToPerson(request.value).(personId := newId)
              && out.result.value.personId == newId
              && Details(out.result.value) == Details(ToPersonResponse(out.state.persons[|s.persons|]))
              && out.result.value == ConvertPersonToPersonResponse(out.state, out.state.persons[|s.persons|])
  {
    match request
    case None => Outcome(s, Failure(ArgumentNull("personAddRequest")))
    case Some(req) =>
      if IsNullOrEmpty(req.personName) then Outcome(s, Failure(Argument("Person cannot be blank")))
      else if !modelValid(req) then Outcome(s, Failure(Validation))
      else
        var person := ToPerson(req).(personId := newId);
        var s' := s.(persons := s.persons + [person]);
        Outcome(s', Success(ConvertPersonToPersonResponse(s', person)))
  }

  /** `GetAllPersons`: one response per person, in list order, without
      country names. */
  function GetAllPersons(s: State): (r: seq<PersonResponse>)
    ensures |r| == |s.persons|
    ensures forall i | 0 <= i < |r| :: r[i] == ToPersonResponse(s.persons[i])
  {
    Seqs.Map(s.persons, ToPersonResponse)
  }

  /** `GetPersonByPersonID`: null for a null id or an id not in the list, else
      the mapped first person with that id. */
  function GetPersonByPersonID(s: State, id: Option<Guid>): (r: Option<PersonResponse>)
    ensures r.None? <==> id.None? || id.value !in PersonIds(s.persons)
    ensures r.Some? ==> exists i | 0 <= i < |s.persons| ::
              && s.persons[i].personId == id.value
              && (forall j | 0 <= j < i :: s.persons[j].personId != id.value)
              && r.value == ToPersonResponse(s.persons[i])
  {
    match id
    case None => None
    case Some(pid) =>
      match Seqs.FirstOrDefault(s.persons, (p: Person) => p.personId == pid)
      case None =>
        assert forall i | 0 <= i < |s.persons| :: s.persons[i].personId != pid;
        None
      case Some(p) => Some(ToPersonResponse(p))
  }

  /** The search keys of this service's `switch`: `nameof(Person.Name)` is
      "Name", the other cases use the property names. */
  function SearchFieldOf(key: string): (f: Option<SearchField>)
    ensures key == "Name" ==> f == Some(PersonNameField)
    ensures key == "PersonName" ==> f.None?
    ensures key != "Name" && key != "PersonName" ==> f == FieldNamed(key)
  {
    if key == "Name" then Some(PersonNameField)
    else if key == "Email" then Some(EmailField)
    else if key == "DateOfBirth" then Some(DateOfBirthField)
    else if key == "Gender" then Some(GenderField)
    else if key == "CountryID" then Some(CountryIdField)
    else if key == "Address" then Some(AddressField)
    else None
  }

  /** The text a search looks at: the property's value, with the date of birth
      formatted "dd MMMM yyyy", which reads back as the date, and the country
      as its name. */
  function FieldText(r: PersonResponse, f: SearchField): (t: Option<string>)
    ensures f == PersonNameField ==> t == r.personName
    ensures f == EmailField ==> t == r.email
    ensures f == GenderField ==> t == r.gender
    ensures f == AddressField ==> t == r.address
    ensures f == DateOfBirthField ==> (t.Some? <==> r.dateOfBirth.Some?)
    ensures f == DateOfBirthField && t.Some? ==> Dates.ParseLongDate(t.value) == r.dateOfBirth
    ensures f == DateOfBirthField && r.dateOfBirth.Some? ==> t == Some(FormatDate(r.dateOfBirth.value, LongYear))
    ensures f == CountryIdField ==> t == r.country
  {
    match f
    case PersonNameField => r.personName
    case EmailField => r.email
    case DateOfBirthField =>
      (match r.dateOfBirth
       case Some(d) => LongDateRoundTrip(d); Some(FormatDate(d, LongYear))
       case None => None)
    case GenderField => r.gender
    case CountryIdField => r.country
    case AddressField => r.address
  }

  /** Both services search the same text for a person: the in-memory search
      reads the converted response, the repository-backed getter the row and
      its related country. Only the date of birth differs, written with a
      four-digit year in one and a two-digit year in the other, and it is
      present in both or in neither. */
  lemma SearchedTextAgrees(s: State, p: Person, f: SearchField)
    ensures f != DateOfBirthField ==>
              FieldText(ConvertPersonToPersonResponse(s, p), f) == PersonsGetterService.Column(s.countries, p, f)
    ensures f == DateOfBirthField ==>
              (FieldText(ConvertPersonToPersonResponse(s, p), f).Some? <==> PersonsGetterService.Column(s.countries, p, f).Some?)
  {
    if f == CountryIdField {
      ConvertResolvesCountryName(s, p);
    }
  }

  /** The `Where` test: a response is kept when the field is null or empty, or
      when some position of it matches the search string ignoring case; an
      empty search string would keep everyone. */
  predicate Keeps(r: PersonResponse, f: SearchField, searchString: string)
    ensures Keeps(r, f, searchString) <==>
              IsNullOrEmpty(FieldText(r, f)) || exists i :: MatchesAtIgnoringCase(searchString, FieldText(r, f).value, i)
    ensures searchString == "" ==> Keeps(r, f, searchString)
  {
    var text := FieldText(r, f);
    if text.Some? then
      EmptyIsContained(text.value);
      IsNullOrEmpty(text) || ContainsIgnoreCase(text.value, searchString)
    else true
  }

  /** Filters `candidates` on the field `key` selects, as both versions of the
      search do. */
  function Search(candidates: seq<PersonResponse>, field: Option<SearchField>,
                  searchBy: Option<string>, searchString: Option<string>): (r: seq<PersonResponse>)
    ensures IsNullOrEmpty(searchBy) || IsNullOrEmpty(searchString) || field.None? ==> r == candidates
    ensures !IsNullOrEmpty(searchBy) && !IsNullOrEmpty(searchString) && field.Some? ==>
              && Seqs.IsSubsequence(r, candidates)
              && (forall x :: x in r <==> x in candidates && Keeps(x, field.value, searchString.value))
              && (forall x | Keeps(x, field.value, searchString.value) :: Seqs.Count(r, x) == Seqs.Count(candidates, x))
              && ((forall i | 0 <= i < |candidates| :: Keeps(candidates[i], field.value, searchString.value)) ==>
                    r == candidates)
  {
    if IsNullOrEmpty(searchBy) || IsNullOrEmpty(searchString) || field.None? then candidates
    else
      var f, needle := field.value, searchString.value;
      var r := Seqs.Filter(candidates, (x: PersonResponse) => Keeps(x, f, needle));
      Seqs.FilterKeepsAll(candidates, (x: PersonResponse) => Keeps(x, f, needle));
      Seqs.FilterCounts(candidates, (x: PersonResponse) => Keeps(x, f, needle));
      forall x ensures x in r <==> x in candidates && Keeps(x, f, needle) {
        Seqs.FilterMembership(candidates, (x: PersonResponse) => Keeps(x, f, needle), x);
      }
      r
  }

  /** `GetFilteredPersons` as written: the whole list when `searchBy` or
      `searchString` is null or empty or the key is not one of the switch's
      cases; otherwise the persons whose field is empty or contains
      `searchString` ignoring case, in list order. */
  function GetFilteredPersons(s: State, searchBy: Option<string>, searchString: Option<string>)
    : (r: seq<PersonResponse>)
    ensures IsNullOrEmpty(searchBy) || IsNullOrEmpty(searchString) || SearchFieldOf(searchBy.value).None? ==>
              r == GetAllPersons(s)
    ensures !IsNullOrEmpty(searchBy) && !IsNullOrEmpty(searchString) && SearchFieldOf(searchBy.value).Some? ==>
              && Seqs.IsSubsequence(r, GetAllPersons(s))
              && (forall x :: x in r <==>
                    x in GetAllPersons(s) && Keeps(x, SearchFieldOf(searchBy.value).value, searchString.value))
              && (forall x | Keeps(x, SearchFieldOf(searchBy.value).value, searchString.value) ::
                    Seqs.Count(r, x) == Seqs.Count(GetAllPersons(s), x))
  {
    var field := if searchBy.Some? then SearchFieldOf(searchBy.value) else None;
    Search(GetAllPersons(s), field, searchBy, searchString)
  }

  /** The list's responses never carry a country name, so the "CountryID" search
      keeps every person whatever the search string. */
  lemma CountrySearchKeepsEveryone(s: State, searchString: Option<string>)
    ensures GetFilteredPersons(s, Some("CountryID"), searchString) == GetAllPersons(s)
  {
    var all := GetAllPersons(s);
    if !IsNullOrEmpty(searchString) {
      assert forall i | 0 <= i < |all| :: Keeps(all[i], CountryIdField, searchString.value);
    }
  }

  /** The "PersonName" key the person list and its filter send is not one of
      this service's cases, so a name search returns the whole list. */
  lemma NameSearchKeepsEveryone(s: State, searchString: Option<string>)
    ensures GetFilteredPersons(s, Some("PersonName"), searchString) == GetAllPersons(s)
  {
  }

  /** A list holding one person named "Bob" and a search for "ma" by
      "PersonName": the written search keeps Bob, the corrected one drops him. */
  lemma NameSearchCounterexample()
    ensures var s := State([Person(1, Some("Bob"), None, None, None, None, None, false, None)], []);
      && |GetFilteredPersons(s, Some("PersonName"), Some("ma"))| == 1
      && GetFilteredPersonsCorrected(s, Some("PersonName"), Some("ma")) == []
  {
    var s := State([Person(1, Some("Bob"), None, None, None, None, None, false, None)], []);
    NameSearchKeepsEveryone(s, Some("ma"));
    var bob := ConvertPersonToPersonResponse(s, s.persons[0]);
    assert bob.personName == Some("Bob");
    NoSuchLetter("Bob", 'M');
    assert "ma"[0] == 'm' && ToUpperInvariant('m') == 'M';
    assert !ContainsIgnoreCase("Bob", "ma");
    NotKept(bob, PersonNameField, "Bob", "ma");
    SinglePersonDropped(s, PersonNameField, "PersonName", "ma");
  }

  /** With a single stored country, a person pointing at it gets its name. */
  lemma ResolvesToOnlyCountry(s: State, p: Person)
    requires |s.countries| == 1 && p.countryId == Some(s.countries[0].countryId)
    ensures ConvertPersonToPersonResponse(s, p).country == s.countries[0].countryName
    ensures FieldText(ConvertPersonToPersonResponse(s, p), CountryIdField) == s.countries[0].countryName
  {
    assert s.countries[0].countryId in CountryIds(s.countries);
  }

  /** A list of one person whose resolved response fails the field test
      yields nothing from the corrected search. */
  lemma SinglePersonDropped(s: State, f: SearchField, key: string, searchString: string)
    requires key != "" && searchString != "" && FieldNamed(key) == Some(f)
    requires |s.persons| == 1 && !Keeps(ConvertPersonToPersonResponse(s, s.persons[0]), f, searchString)
    ensures GetFilteredPersonsCorrected(s, Some(key), Some(searchString)) == []
  {
    var c := ConvertPersonToPersonResponse(s, s.persons[0]);
    SingleResolved(s);
    CorrectedIsSearch(s, key, searchString);
    SearchDropsOnly(c, f, key, searchString);
  }

  /** A list of one person resolves to that person's response. */
  lemma SingleResolved(s: State)
    requires |s.persons| == 1
    ensures ResolvedPersons(s) == [ConvertPersonToPersonResponse(s, s.persons[0])]
  {
    var resolved := ResolvedPersons(s);
    assert resolved[0] == ConvertPersonToPersonResponse(s, s.persons[0]);
  }

  /** The corrected search filters the resolved responses on the named field. */
  lemma CorrectedIsSearch(s: State, key: string, searchString: string)
    ensures GetFilteredPersonsCorrected(s, Some(key), Some(searchString))
         == Search(ResolvedPersons(s), FieldNamed(key), Some(key), Some(searchString))
  {
  }

  /** Searching a single response that fails the field test yields nothing. */
  lemma SearchDropsOnly(c: PersonResponse, f: SearchField, key: string, searchString: string)
    requires key != "" && searchString != "" && !Keeps(c, f, searchString)
    ensures Search([c], Some(f), Some(key), Some(searchString)) == []
  {
    var r := Search([c], Some(f), Some(key), Some(searchString));
    assert Seqs.IsSubsequence(r, [c]) && c !in r;
    assert r == [] || r == [c];
  }

  /** A list holding one person, Ann, whose country is "Poland". The countries
      service must be shared to hold country 7; the parameterless constructor's
      own service stays empty (see `CorrectedCountrySearchWithoutCountries`). */
  const PolandExample: State :=
    State([Person(1, Some("Ann"), None, None, None, Some(7), None, false, None)], [Country(7, Some("Poland"))])

  /** Searching `PolandExample` for "ma" by "CountryID": the written search
      keeps Ann, the corrected one drops her. */
  lemma CountrySearchCounterexample()
    ensures |GetFilteredPersons(PolandExample, Some("CountryID"), Some("ma"))| == 1
    ensures GetFilteredPersonsCorrected(PolandExample, Some("CountryID"), Some("ma")) == []
  {
    CountrySearchKeepsEveryone(PolandExample, Some("ma"));
    CorrectedCountrySearchDropsAnn();
  }

  lemma CorrectedCountrySearchDropsAnn()
    ensures GetFilteredPersonsCorrected(PolandExample, Some("CountryID"), Some("ma")) == []
  {
    var s := PolandExample;
    var ann := ConvertPersonToPersonResponse(s, s.persons[0]);
    ResolvesToOnlyCountry(s, s.persons[0]);
    NoSuchLetter("Poland", 'M');
    assert "ma"[0] == 'm' && ToUpperInvariant('m') == 'M';
    assert !ContainsIgnoreCase("Poland", "ma");
    assert s.countries[0].countryName == Some("Poland");
    NotKept(ann, CountryIdField, "Poland", "ma");
    SinglePersonDropped(s, CountryIdField, "CountryID", "ma");
  }

  /** A response whose searched text is non-empty and lacks the search string
      is not kept. */
  lemma NotKept(r: PersonResponse, f: SearchField, text: string, searchString: string)
    requires FieldText(r, f) == Some(text)
    requires |text| > 0 && !ContainsIgnoreCase(text, searchString)
    ensures !Keeps(r, f, searchString)
  {
  }

  /** A string in which no character folds to `upper` contains no needle
      starting with a letter that does. */
  lemma NoSuchLetter(hay: string, upper: char)
    requires forall k | 0 <= k < |hay| :: ToUpperInvariant(hay[k]) != upper
    ensures forall needle | |needle| > 0 && ToUpperInvariant(needle[0]) == upper :: !ContainsIgnoreCase(hay, needle)
  {
    forall needle, i | |needle| > 0 && ToUpperInvariant(needle[0]) == upper
      ensures !MatchesAtIgnoringCase(needle, hay, i)
    {
    }
  }

  /** The responses the corrected search filters: each person with its country
      name resolved. */
  function ResolvedPersons(s: State): (r: seq<PersonResponse>)
    ensures |r| == |s.persons|
    ensures forall i | 0 <= i < |r| :: r[i] == ConvertPersonToPersonResponse(s, s.persons[i])
  {
    Seqs.Map(s.persons, (p: Person) => ConvertPersonToPersonResponse(s, p))
  }

  /** `GetFilteredPersons` as evidently intended: the keys are the property
      names the person list sends, and the "CountryID" search looks at the
      resolved country name. */
  function GetFilteredPersonsCorrected(s: State, searchBy: Option<string>, searchString: Option<string>)
    : (r: seq<PersonResponse>)
    ensures IsNullOrEmpty(searchBy) || IsNullOrEmpty(searchString) || searchBy.value !in SearchKeys ==>
              r == ResolvedPersons(s)
    ensures !IsNullOrEmpty(searchBy) && !IsNullOrEmpty(searchString) && searchBy.value in SearchKeys ==>
              && Seqs.IsSubsequence(r, ResolvedPersons(s))
              && (forall x :: x in r <==>
                    x in ResolvedPersons(s) && Keeps(x, FieldNamed(searchBy.value).value, searchString.value))
              && (forall x | Keeps(x, FieldNamed(searchBy.value).value, searchString.value) ::
                    Seqs.Count(r, x) == Seqs.Count(ResolvedPersons(s), x))
  {
    var field := if searchBy.Some? then FieldNamed(searchBy.value) else None;
    Search(ResolvedPersons(s), field, searchBy, searchString)
  }

  /** In the corrected search by "CountryID", a person whose country's name does
      not contain the search string is left out. */
  lemma CorrectedCountrySearchFilters(s: State, i: nat, searchString: string)
    requires i < |s.persons| && searchString != ""
    requires var c := ConvertPersonToPersonResponse(s, s.persons[i]).country;
             c.Some? && c.value != "" && !ContainsIgnoreCase(c.value, searchString)
    ensures ConvertPersonToPersonResponse(s, s.persons[i]) !in
              GetFilteredPersonsCorrected(s, Some("CountryID"), Some(searchString))
  {
    var r := ConvertPersonToPersonResponse(s, s.persons[i]);
    CountryFieldText(r);
    assert FieldNamed("CountryID") == Some(CountryIdField);
    assert !Keeps(r, CountryIdField, searchString);
  }

  /** The service builds its own countries service and never adds a country
      to it, so in every state this version reaches no country name resolves
      and even the corrected "CountryID" search keeps everyone; the defect
      shows once the countries service is shared, as in the later constructor
      that takes one. */
  lemma CorrectedCountrySearchWithoutCountries(s: State, searchString: Option<string>)
    requires s.countries == []
    ensures GetFilteredPersonsCorrected(s, Some("CountryID"), searchString) == ResolvedPersons(s)
  {
    var all := ResolvedPersons(s);
    assert FieldNamed("CountryID") == Some(CountryIdField);
    if !IsNullOrEmpty(searchString) {
      forall i | 0 <= i < |all| ensures Keeps(all[i], CountryIdField, searchString.value) {
        assert all[i].country.None?;
      }
    }
  }

  /** The "CountryID" search looks at the response's country name. */
  lemma CountryFieldText(r: PersonResponse)
    ensures FieldText(r, CountryIdField) == r.country
  {
  }

  /** An added person is listed by `GetAllPersons` and found by its id, in both
      cases as a response `Equals` to the one `AddPerson` returned. */
  lemma AddedPersonIsListedAndFound(s: State, request: Option<PersonAddRequest>,
                                    modelValid: PersonAddRequest -> bool, newId: Guid)
    requires newId != EmptyGuid && newId !in PersonIds(s.persons)
    requires AddPerson(s, request, modelValid, newId).result.Success?
    ensures var out := AddPerson(s, request, modelValid, newId);
      && out.result.value.personId != EmptyGuid
      && (exists r | r in GetAllPersons(out.state) :: Equals(r, OfPersonResponse(out.result.value)))
      && GetPersonByPersonID(out.state, Some(newId)).Some?
      && Equals(GetPersonByPersonID(out.state, Some(newId)).value, OfPersonResponse(out.result.value))
  {
    var out := AddPerson(s, request, modelValid, newId);
    var n := |s.persons|;
    var all := GetAllPersons(out.state);
    assert Equals(all[n], OfPersonResponse(out.result.value));
    assert out.state.persons[n].personId == newId;
    var found := GetPersonByPersonID(out.state, Some(newId));
    var i :| 0 <= i < |out.state.persons| && out.state.persons[i].personId == newId
             && found.value == ToPersonResponse(out.state.persons[i]);
  }
}

=== FILE: seqs.dfy ===
/** The LINQ operators the services use over lists: `Where`, `Select` and
    `FirstOrDefault`, with their order and membership guarantees. */
module Seqs {
  import opened Wrappers

  /** `sub` is obtained from `xs` by deleting some elements and keeping the
      order of the rest. */
  predicate IsSubsequence<T(==)>(sub: seq<T>, xs: seq<T>)
    decreases |xs|
  {
    if sub == [] then true
    else if xs == [] then false
    else if sub[0] == xs[0] then IsSubsequence(sub[1..], xs[1..])
    else IsSubsequence(sub, xs[1..])
  }

  /** Every sequence is a subsequence of itself. */
  lemma {:induction false} SubsequenceOfItself<T>(xs: seq<T>)
    ensures IsSubsequence(xs, xs)
    decreases |xs|
  {
    if xs != [] {
      SubsequenceOfItself(xs[1..]);
    }
  }

  /** Number of occurrences of `x` in `xs`. */
  function Count<T(==)>(xs: seq<T>, x: T): nat {
    multiset(xs)[x]
  }

  /** `xs.Where(keep).ToList()`: exactly the elements satisfying `keep`, each
      as often as in `xs`, in their original order. */
  function Filter<T(==,!new)>(xs: seq<T>, keep: T -> bool): (ys: seq<T>)
    ensures IsSubsequence(ys, xs)
    ensures forall i | 0 <= i < |ys| :: keep(ys[i])
    ensures multiset(ys) <= multiset(xs)
    ensures |ys| <= |xs|
    decreases |xs|
  {
    if xs == [] then []
    else
      var rest := Filter(xs[1..], keep);
      assert xs == [xs[0]] + xs[1..];
      assert multiset(xs) == multiset{xs[0]} + multiset(xs[1..]);
      if keep(xs[0]) then
        assert ([xs[0]] + rest)[1..] == rest;
        assert multiset([xs[0]] + rest) == multiset{xs[0]} + multiset(rest);
        [xs[0]] + rest
      else
        rest
  }

  /** Filtering changes nothing exactly when every element satisfies the
      predicate, and it changes something exactly when it shortens. */
  lemma {:induction false} FilterKeepsAll<T(!new)>(xs: seq<T>, keep: T -> bool)
    ensures Filter(xs, keep) == xs <==> forall i | 0 <= i < |xs| :: keep(xs[i])
    ensures |Filter(xs, keep)| == |xs| <==> Filter(xs, keep) == xs
    decreases |xs|
  {
    if xs != [] {
      FilterKeepsAll(xs[1..], keep);
      var rest := Filter(xs[1..], keep);
      if forall i | 0 <= i < |xs| :: keep(xs[i]) {
        assert forall i | 0 <= i < |xs[1..]| :: keep(xs[1..][i]) by {
          forall i | 0 <= i < |xs[1..]| ensures keep(xs[1..][i]) {
            assert xs[1..][i] == xs[i + 1];
          }
        }
        assert xs == [xs[0]] + xs[1..];
      }
      if |Filter(xs, keep)| == |xs| {
        assert keep(xs[0]);
        assert Filter(xs, keep) == [xs[0]] + rest;
        assert xs == [xs[0]] + xs[1..];
      }
    }
  }

  /** Filtering keeps every occurrence of an element satisfying the predicate. */
  lemma {:induction false} FilterCount<T(!new)>(xs: seq<T>, keep: T -> bool, x: T)
    requires keep(x)
    ensures Count(Filter(xs, keep), x) == Count(xs, x)
    decreases |xs|
  {
    if xs != [] {
      FilterCount(xs[1..], keep, x);
      var rest := Filter(xs[1..], keep);
      var head := if keep(xs[0]) then [xs[0]] else [];
      assert Filter(xs, keep) == head + rest;
      assert xs == [xs[0]] + xs[1..];
      assert multiset(head)[x] == multiset([xs[0]])[x];
    }
  }

  /** Filtering keeps every occurrence of the elements satisfying the
      predicate and none of the others. */
  lemma FilterCounts<T(!new)>(xs: seq<T>, keep: T -> bool)
    ensures forall x | keep(x) :: Count(Filter(xs, keep), x) == Count(xs, x)
    ensures forall x | !keep(x) :: Count(Filter(xs, keep), x) == 0
  {
    var ys := Filter(xs, keep);
    forall x | keep(x) ensures Count(ys, x) == Count(xs, x) {
      FilterCount(xs, keep, x);
    }
  }

  /** Filtering then mapping is mapping then filtering, when the predicate on
      the images agrees with the predicate on the originals. */
  lemma {:induction false} MapFilter<A(!new), B(!new)>(xs: seq<A>, keep: A -> bool, f: A -> B, keep2: B -> bool)
    requires forall i | 0 <= i < |xs| :: keep(xs[i]) == keep2(f(xs[i]))
    ensures Map(Filter(xs, keep), f) == Filter(Map(xs, f), keep2)
    decreases |xs|
  {
    if xs != [] {
      var tail := xs[1..];
      MapFilter(tail, keep, f, keep2);
      MapHeadTail(xs, f);
      var rest := Filter(tail, keep);
      if keep(xs[0]) {
        MapHeadTail([xs[0]] + rest, f);
        assert ([xs[0]] + rest)[1..] == rest;
      }
    }
  }

  /** Mapping a non-empty sequence maps its head and then its tail. */
  lemma MapHeadTail<A, B>(xs: seq<A>, f: A -> B)
    requires xs != []
    ensures Map(xs, f) == [f(xs[0])] + Map(xs[1..], f)
  {
  }

  /** Filtering keeps an element exactly when it is in the input and satisfies
      the predicate. */
  lemma FilterMembership<T(!new)>(xs: seq<T>, keep: T -> bool, x: T)
    ensures x in Filter(xs, keep) <==> x in xs && keep(x)
  {
    var ys := Filter(xs, keep);
    if x in ys {
      var i :| 0 <= i < |ys| && ys[i] == x;
      assert keep(ys[i]);
      assert multiset(ys)[x] > 0;
    }
    if x in xs && keep(x) {
      FilterCount(xs, keep, x);
      assert Count(xs, x) > 0;
    }
  }

  /** `xs.Select(f).ToList()`. */
  function Map<A, B>(xs: seq<A>, f: A -> B): (ys: seq<B>)
    ensures |ys| == |xs|
    ensures forall i | 0 <= i < |xs| :: ys[i] == f(xs[i])
  {
    seq(|xs|, i requires 0 <= i < |xs| => f(xs[i]))
  }

  /** Index of the first element satisfying `p`, if any. */
  function FindFirst<T>(xs: seq<T>, p: T -> bool): (r: Option<nat>)
    ensures r.None? <==> forall i | 0 <= i < |xs| :: !p(xs[i])
    ensures r.Some? ==> r.value < |xs| && p(xs[r.value])
    ensures r.Some? ==> forall j | 0 <= j < r.value :: !p(xs[j])
    decreases |xs|
  {
    if xs == [] then None
    else if p(xs[0]) then Some(0)
    else
      match FindFirst(xs[1..], p)
      case None => None
      case Some(k) => Some(k + 1)
  }

  /** `xs.FirstOrDefault(p)`: the first element satisfying `p`, or null. */
  function FirstOrDefault<T>(xs: seq<T>, p: T -> bool): (r: Option<T>)
    ensures r.None? <==> forall i | 0 <= i < |xs| :: !p(xs[i])
    ensures r.Some? ==> exists i | 0 <= i < |xs| :: xs[i] == r.value && p(xs[i])
                                                 && forall j | 0 <= j < i :: !p(xs[j])
  {
    match FindFirst(xs, p)
    case None => None
    case Some(i) => Some(xs[i])
  }

  /** Appending an element whose predicate fails everywhere before does not
      change which element is found first, unless none was found before. */
  lemma FirstOrDefaultAppend<T>(xs: seq<T>, x: T, p: T -> bool)
    ensures FirstOrDefault(xs + [x], p) ==
            if FirstOrDefault(xs, p).Some? then FirstOrDefault(xs, p)
            else if p(x) then Some(x) else None
  {
    var ys := xs + [x];
    assert forall i | 0 <= i < |xs| :: ys[i] == xs[i];
    match FindFirst(xs, p)
    case Some(i) =>
      assert FindFirst(ys, p) == Some(i) by {
        var k := FindFirst(ys, p);
        assert ys[i] == xs[i];
      }
    case None =>
      if p(x) {
        assert p(ys[|xs|]);
      } else {
        assert forall i | 0 <= i < |ys| :: !p(ys[i]) by {
          forall i | 0 <= i < |ys| ensures !p(ys[i]) {
            if i < |xs| { assert ys[i] == xs[i]; }
          }
        }
      }
  }
}

=== FILE: sql_text.dfy ===
/** Comparisons on nullable text columns as the database evaluates them once
    Entity Framework Core has translated a LINQ predicate for SQL Server: the
    column's collation decides case, and a comparison with SQL null is never
    true. */
module SqlText {
  import opened Wrappers
  import opened Text

  /** The collation of a text column: whether comparisons fold case. */
  datatype Collation = CaseSensitive | CaseInsensitive

  /** `a = b` under the collation. */
  predicate EqualUnder(a: string, b: string, collation: Collation) {
    match collation
    case CaseSensitive => a == b
    case CaseInsensitive => ToUpper(a) == ToUpper(b)
  }

  /** `needle` occurs in `hay` under the collation. */
  predicate ContainsUnder(hay: string, needle: string, collation: Collation) {
    match collation
    case CaseSensitive => Contains(hay, needle)
    case CaseInsensitive => ContainsIgnoreCase(hay, needle)
  }

  /** `column == value` with a non-null `value`: a null column never equals it,
      a non-null one equals it under the collation. */
  predicate ColumnEquals(column: Option<string>, value: string, collation: Collation)
    ensures ColumnEquals(column, value, collation) ==> column.Some?
    ensures column == Some(value) ==> ColumnEquals(column, value, collation)
  {
    column.Some? && EqualUnder(column.value, value, collation)
  }

  /** `column.Contains(searchString)` with a parameter, translated as
      `@p LIKE N'' OR CHARINDEX(@p, column) > 0`: the empty string selects
      every row, null columns included; a null parameter selects none; any
      other string selects the non-null columns that contain it under the
      collation. */
  predicate ColumnContains(column: Option<string>, searchString: Option<string>, collation: Collation)
    ensures searchString.None? ==> !ColumnContains(column, searchString, collation)
    ensures searchString == Some("") ==> ColumnContains(column, searchString, collation)
    ensures searchString.Some? && searchString.value != "" ==>
              (ColumnContains(column, searchString, collation) <==>
                 column.Some? && ContainsUnder(column.value, searchString.value, collation))
  {
    searchString.Some? &&
    (searchString.value == "" || (column.Some? && ContainsUnder(column.value, searchString.value, collation)))
  }

  /** SQL's three truth values: a comparison with null is `Unknown`. */
  datatype Truth = True | False | Unknown

  /** SQL `OR`: true when either side is, false when both are, else unknown. */
  function Or(a: Truth, b: Truth): Truth {
    if a == True || b == True then True
    else if a == False && b == False then False
    else Unknown
  }

  /** `WHERE` keeps a row only when its condition is true, not unknown. */
  predicate Where(t: Truth) {
    t == True
  }

  /** `@p LIKE N''`: unknown for a null parameter; the empty pattern matches
      only the empty string. */
  function LikeEmpty(p: Option<string>): Truth {
    match p
    case None => Unknown
    case Some(v) => if v == "" then True else False
  }

  /** The position of the first ordinal occurrence of `needle` in `hay`. */
  function IndexOf(hay: string, needle: string): (r: Option<nat>)
    ensures r.Some? <==> Contains(hay, needle)
    ensures r.Some? ==> OccursAt(needle, hay, r.value)
    decreases |hay|
  {
    if |needle| > |hay| then None
    else if needle <= hay then Some(0)
    else
      match IndexOf(hay[1..], needle)
      case None => None
      case Some(i) =>
        assert hay[i + 1..i + 1 + |needle|] == hay[1..][i..i + |needle|];
        Some(i + 1)
  }

  /** `CHARINDEX(needle, hay)` on non-null operands: 0 for an empty `needle`,
      otherwise the 1-based position of its first occurrence under the
      collation, or 0 when there is none. */
  function CharIndex(needle: string, hay: string, collation: Collation): nat {
    if needle == "" then 0
    else
      var found := match collation
                   case CaseSensitive => IndexOf(hay, needle)
                   case CaseInsensitive => IndexOf(ToUpper(hay), ToUpper(needle));
      match found
      case None => 0
      case Some(i) => i + 1
  }

  /** `CHARINDEX(@p, column) > 0`: unknown when either operand is null. */
  function CharIndexPositive(p: Option<string>, column: Option<string>, collation: Collation): Truth {
    if p.None? || column.None? then Unknown
    else if CharIndex(p.value, column.value, collation) > 0 then True
    else False
  }

  /** `ColumnContains` keeps exactly the rows that `WHERE @p LIKE N'' OR
      CHARINDEX(@p, column) > 0` keeps under SQL's three-valued logic. */
  lemma ColumnContainsIsTranslation(column: Option<string>, searchString: Option<string>, collation: Collation)
    ensures ColumnContains(column, searchString, collation)
        <==> Where(Or(LikeEmpty(searchString), CharIndexPositive(searchString, column, collation)))
  {
  }

  /** What a case-sensitive collation accepts, a case-insensitive one accepts
      too. */
  lemma CaseSensitiveImpliesInsensitive(hay: string, needle: string)
    ensures EqualUnder(hay, needle, CaseSensitive) ==> EqualUnder(hay, needle, CaseInsensitive)
    ensures ContainsUnder(hay, needle, CaseSensitive) ==> ContainsUnder(hay, needle, CaseInsensitive)
  {
    if Contains(hay, needle) {
      ContainsImpliesContainsIgnoreCase(hay, needle);
    }
  }

  /** Equality under a collation is an equivalence. */
  lemma EqualUnderIsEquivalence(a: string, b: string, c: string, collation: Collation)
    ensures EqualUnder(a, a, collation)
    ensures EqualUnder(a, b, collation) ==> EqualUnder(b, a, collation)
    ensures EqualUnder(a, b, collation) && EqualUnder(b, c, collation) ==> EqualUnder(a, c, collation)
  {
  }
}

=== FILE: text.dfy ===
/** The string operations the services rely on: `string.IsNullOrEmpty`,
    ordinal `Contains`, and `Contains` under `StringComparison.OrdinalIgnoreCase`. */
module Text {
  import opened Wrappers

  /** `string.IsNullOrEmpty(s)`. */
  predicate IsNullOrEmpty(s: Option<string>) {
    s.None? || s.value == ""
  }

  /** `needle` occurs in `hay` starting at position `i`. */
  ghost predicate OccursAt(needle: string, hay: string, i: int) {
    0 <= i && i + |needle| <= |hay| && hay[i..i + |needle|] == needle
  }

  /** Ordinal `hay.Contains(needle)`: a character-by-character substring test. */
  function Contains(hay: string, needle: string): (b: bool)
    ensures b <==> exists i :: OccursAt(needle, hay, i)
    decreases |hay|
  {
    if |needle| > |hay| then false
    else if needle <= hay then
      assert OccursAt(needle, hay, 0);
      true
    else
      ContainsShift(hay, needle);
      Contains(hay[1..], needle)
  }

  /** When `needle` is not a prefix of `hay`, its occurrences in `hay` are those
      in `hay[1..]`, shifted by one. */
  lemma ContainsShift(hay: string, needle: string)
    requires |needle| <= |hay| && !(needle <= hay)
    ensures (exists i :: OccursAt(needle, hay, i)) <==> (exists j :: OccursAt(needle, hay[1..], j))
  {
    if i :| OccursAt(needle, hay, i) {
      assert i != 0;
      assert hay[1..][i - 1..i - 1 + |needle|] == hay[i..i + |needle|];
      assert OccursAt(needle, hay[1..], i - 1);
    }
    if j :| OccursAt(needle, hay[1..], j) {
      assert hay[1..][j..j + |needle|] == hay[j + 1..j + 1 + |needle|];
      assert OccursAt(needle, hay, j + 1);
    }
  }

  /** The invariant-culture upper-case mapping of ordinal comparison, on the
      ASCII letters. */
  function ToUpperInvariant(c: char): (u: char)
    ensures 'a' <= c <= 'z' ==> u as int == c as int - 32
    ensures !('a' <= c <= 'z') ==> u == c
  {
    if 'a' <= c <= 'z' then (c as int - 32) as char else c
  }

  /** Two characters are equal under `OrdinalIgnoreCase`. */
  predicate SameIgnoringCase(a: char, b: char) {
    ToUpperInvariant(a) == ToUpperInvariant(b)
  }

  /** `s.ToUpperInvariant()`, character by character. */
  function ToUpper(s: string): (u: string)
    ensures |u| == |s|
    ensures forall k | 0 <= k < |s| :: u[k] == ToUpperInvariant(s[k])
  {
    seq(|s|, k requires 0 <= k < |s| => ToUpperInvariant(s[k]))
  }

  /** `needle` matches `hay` at position `i` when case is ignored. */
  ghost predicate MatchesAtIgnoringCase(needle: string, hay: string, i: int) {
    && 0 <= i && i + |needle| <= |hay|
    && forall k | 0 <= k < |needle| :: SameIgnoringCase(hay[i + k], needle[k])
  }

  /** `hay.Contains(needle, StringComparison.OrdinalIgnoreCase)`: both strings
      are folded to upper case and compared ordinally. */
  function ContainsIgnoreCase(hay: string, needle: string): (b: bool)
    ensures b <==> exists i :: MatchesAtIgnoringCase(needle, hay, i)
  {
    var b := Contains(ToUpper(hay), ToUpper(needle));
    FoldedOccurrence(hay, needle);
    b
  }

  /** An occurrence of the folded needle in the folded haystack is exactly a
      case-insensitive match. */
  lemma FoldedOccurrence(hay: string, needle: string)
    ensures (exists i :: OccursAt(ToUpper(needle), ToUpper(hay), i))
        <==> (exists i :: MatchesAtIgnoringCase(needle, hay, i))
  {
    var h, n := ToUpper(hay), ToUpper(needle);
    forall i | 0 <= i && i + |needle| <= |hay|
      ensures OccursAt(n, h, i) <==> MatchesAtIgnoringCase(needle, hay, i)
    {
      if OccursAt(n, h, i) {
        forall k | 0 <= k < |needle| ensures SameIgnoringCase(hay[i + k], needle[k]) {
          assert h[i..i + |n|][k] == n[k];
        }
      }
      if MatchesAtIgnoringCase(needle, hay, i) {
        var w := h[i..i + |n|];
        assert forall k | 0 <= k < |n| :: w[k] == n[k];
        assert w == n;
      }
    }
  }

  /** The empty string is found in every string, with or without case. */
  lemma EmptyIsContained(hay: string)
    ensures Contains(hay, "") && ContainsIgnoreCase(hay, "")
  {
    assert OccursAt("", ToUpper(hay), 0);
  }

  /** An ordinal match is also a case-insensitive one. */
  lemma ContainsImpliesContainsIgnoreCase(hay: string, needle: string)
    requires Contains(hay, needle)
    ensures ContainsIgnoreCase(hay, needle)
  {
    var i :| OccursAt(needle, hay, i);
    forall k | 0 <= k < |needle| ensures SameIgnoringCase(hay[i + k], needle[k]) {
      assert hay[i..i + |needle|][k] == needle[k];
    }
    assert MatchesAtIgnoringCase(needle, hay, i);
  }

  /** Case-insensitive containment does not depend on the case of the needle. */
  lemma ContainsIgnoreCaseOfUpper(hay: string, needle: string)
    ensures ContainsIgnoreCase(hay, ToUpper(needle)) == ContainsIgnoreCase(hay, needle)
  {
    var n := ToUpper(needle);
    forall i ensures MatchesAtIgnoringCase(n, hay, i) <==> MatchesAtIgnoringCase(needle, hay, i) {
      assert forall k | 0 <= k < |needle| :: ToUpperInvariant(n[k]) == ToUpperInvariant(needle[k]);
    }
  }
}

=== FILE: wrappers.dfy ===
/** Nullable values and success/failure results, standing in for C#'s `null`
    references and thrown exceptions. */
module Wrappers {

  /** A value that may be absent: `None` plays the part of a C# `null`. */
  datatype Option<+T> = None | Some(value: T) {

    /** Returns the value, or `default` when it is absent (C#'s `??`). */
    function GetOr(default: T): T {
      match this
      case Some(v) => v
      case None => default
    }
  }

  /** Either a returned value or the exception the operation would throw. */
  datatype Result<+T, +E> = Success(value: T) | Failure(error: E)
}
